=== FILE: README.md ===
# Used-car listing pipeline: cleaning, preparation and crawling logic

This project models, in Dafny, the pure logic at the centre of an MLOps pipeline that
crawls used-car listings from a Vietnamese classifieds site, cleans them, and prepares
train, validation and test tables for a price-regression model.

The model covers six pieces of the repository:

- **Configuration** (`Config`): the feature lists, the numeric limits and the categorical
  allow-lists of `configs/config.py`.
- **Split preparation** (`Preparation`, `Preprocess`): the parts of `prepare_data` and
  `pipeline_preprocessing` that are logic rather than I/O.
  - The two-sided outlier bound `detect_outline`.
  - The numeric and categorical row filters.
  - Imputation from the training split.
  - The `Transform` class, with its encoders fitted on the training split only and the
    same fitted state applied to every split.
  - The projection to `FEATURES`.
- **Raw-data validation** (`Validation`): the placeholder filter and the metadata-column
  drop of `infer_schema`, and the `None`-on-failure result of `get_schema`.
- **Crawler pipeline** (`Pipelines`): the normalisers of `BonBanhPipeline`.
  - Replacement tables, applied in dictionary order.
  - Wheel drive, kilometres, engine information, seats, year and price.
  - The storage decision of `process_item`: store, count as out of date, or ignore.
- **Spider** (`Spider`): the page-indicator parser, the current-page check, the next-page
  address, and the detail-table label lookup of `BonbanhSpider`.
  - Includes the quirk that removing the seat-count label shifts later lookups by one.
- **Support modules**:
  - `Wrappers`: `Option`, `Result`.
  - `Frames`: row selection as an order-preserving `Filter`.
  - `Text`: Python's `str.replace`, `split`, `strip`, `lower`, `isdigit`, `int` and `float` on ASCII numbers.
  - `Records` and `Items`: the table rows and the scraped items.

### Modelling choices

- **Cells.** A numeric cell is `Option<real>`, where `None` stands for NaN. Every
  comparison with NaN is false, so a missing value never passes a bound. A text cell is
  `Option<string>`.
- **Encoders.** The library encoders are pairs of abstract functions, `fit` and `encode`.
- **Training statistics and z-score filter.** The imputation values from the training
  split and the z-score target filter are function parameters.
- **Post dates.** Date parsing and the clock are replaced by the post's age in days.
- **Spider inputs.** The spider works on texts already selected from the page.
  `response.urljoin` is a parameter.
- **Crashes become preconditions.** Where the source raises on input it does not check,
  the model states that input as a precondition. This covers:
  - `process_item` on a missing engine, km, car-type, gearbox or origin field;
  - `int()` or `float()` on a non-numeric year or price;
  - `parse` with listing lists shorter than the item-link list.

### Behaviour of the code worth knowing

- **Year bound.** `detect_outline` compares strictly on both sides, and `year` is given
  the lower limit 2007 (`components/data_preparation/__init__.py:50` and `:13`). A
  listing from 2007 is therefore dropped: `Preparation.Year2007Dropped` proves it.
- **Pickup label.** The site's pickup label is matched against a key spelled with
  combining accents (a + U+0301, a + U+0309), exactly as the source writes it. A
  precomposed spelling is not translated.
- **Replacement tables rewrite substrings.** `_replace_all` calls `str.replace` for each
  key, so a label that contains a key, rather than equals it, is rewritten in part.
  "Số tay côn" becomes "manual côn", which the gearbox allow-list then rejects
  (`Pipelines.GearboxManualWithSuffix`).

## Model

| member | source | states |
|---|---|---|
| Config.FeaturesLayout | configs/config.py:119-121 | `FEATURES` has 13 distinct names: the five numeric ones (price among them), then the eight categorical ones; `location` and `fuels` are not among them, so the projection drops both |
| Config.CategoryOtherPartition | configs/config.py:32 | `category_other` is the categorical features without `branch` and `model`, with no duplicates |
| Config.ConfiguredFieldsAreFeatures | configs/config.py:90-121 | every allow-listed field is in `category_other`; every bounded field is numeric |
| Config.BoundsOrdered | configs/config.py:90-108 | every numeric range is non-empty; only `year` is unbounded above |
| Config.AllowListsDistinct | configs/config.py:109-115 | the allow-lists have 2, 4, 10 and 2 distinct entries |
| Frames.Filter | components/data_preparation/__init__.py:50 | a row is selected iff it was in the table and passes the mask; the result is no longer than the table |
| Frames.FilterIsSubsequence | components/data_preparation/__init__.py:50 | selection keeps the original row order |
| Frames.FilterCounts | components/data_preparation/__init__.py:50 | a row the mask accepts keeps all its copies, a row it rejects keeps none |
| Frames.FilterIdempotent | components/data_preparation/__init__.py:50 | selecting twice with the same mask is selecting once |
| Frames.FilterCompose | components/data_preparation/__init__.py:146 | two successive selections are one selection by the conjunction |
| Frames.FilterComposeFour | components/data_preparation/__init__.py:57-61 | four successive selections are one selection by the conjunction of the four |
| Frames.FilterConcat | components/data_preparation/__init__.py:50 | selection distributes over concatenation of tables |
| Frames.FilterSkipsRejected | components/data_preparation/__init__.py:50 | a rejected row can be inserted anywhere without changing the selection |
| Frames.FilterAllPass | components/data_preparation/__init__.py:50 | a table whose every row passes comes back whole |
| Frames.SubsequenceTransitive | components/data_preparation/__init__.py:146 | a selection of a selection is an order-preserving subsequence of the original |
| Preparation.DetectOutline | components/data_preparation/__init__.py:45-50 | keeps every copy of each row with lower < value < upper and no copy of any other row, in order; missing values are dropped |
| Preparation.DetectOutlineExclusive | components/data_preprocess/__init__.py:8-11 | a value equal to either limit, or missing, is dropped |
| Preparation.FilterNumericFeature | components/data_preparation/__init__.py:53-62 | keeps a row iff year > 2007, 0 < km < 1e9, 0 < seats < 30 and 0 < engine < 10, as an order-preserving subsequence |
| Preparation.NumericOk | components/data_preparation/__init__.py:53-62 | no contract of its own: the four numeric conditions, each strict, with a missing value failing; Preparation.NumericSelections and Preparation.FilterNumericHonoursConfig state that the four `detect_outline` calls select by exactly this condition |
| Preparation.NumericSelections | components/data_preprocess/__init__.py:14-21 | the four `detect_outline` calls select by the conjunction of their four conditions |
| Preparation.FilterNumericHonoursConfig | components/data_preprocess/__init__.py:17-20 | although each call passes one limit only, the defaults it keeps (0 and infinity) are the configured limits, so every configured range is honoured |
| Preparation.Year2007Dropped | components/data_preparation/__init__.py:57 | a listing from 2007 is dropped: the year bound is strict |
| Preparation.CategoryOkWrittenOut | components/data_preparation/__init__.py:69-72 | the category condition is membership of origin, wheel drive, car type and gearbox in the four configured lists |
| Preparation.FilterCategoryFeature | components/data_preparation/__init__.py:65-73 | keeps a row iff its four listed fields are in their allow-lists, in order; unknown values are dropped, not raised |
| Preparation.CategoryOk | components/data_preparation/__init__.py:65-73 | no contract of its own: the four allow-list memberships; Preparation.CategoryOkWrittenOut writes out the configured lists and Preparation.FilterCategoryFeature states that the filter keeps exactly the rows meeting it |
| Preparation.CategoryIgnoresUnlistedColumns | components/data_preprocess/__init__.py:24-31 | colours, branch, model, fuels and location do not affect the category filter |
| Preparation.FiltersIdempotent | components/data_preparation/__init__.py:146-148 | each filter applied to its own output changes nothing |
| Preparation.FiltersCommute | components/data_preparation/__init__.py:146-148 | the two filters compose to one selection by all eight conditions, in either order |
| Preparation.RejectedRowIsInvisible | components/data_preparation/__init__.py:146-148 | a row failing either filter has no influence on the output, wherever it sits |
| Preparation.FillMissing | components/data_preparation/__init__.py:132-139 | a missing wheel drive or engine capacity takes the fill value; present cells and all other columns are unchanged |
| Preparation.FillMissingSettles | components/data_preprocess/__init__.py:86-93 | after imputation nothing is missing, so a second imputation with any values changes nothing |
| Preparation.Fit | components/data_preparation/__init__.py:92-95 | the three encoders are fitted on the training split's columns, with price as the target for branch and model |
| Preparation.FitReadsOnlyTrain | components/data_preparation/__init__.py:92-95 | replacing the test and validation splits leaves the fitted encoders unchanged |
| Preparation.EncodeRow | components/data_preparation/__init__.py:97-108 | the numeric columns, location and fuels pass through encoding unchanged |
| Preparation.EncodeSplit | components/data_preparation/__init__.py:97-108 | one encoded row per input row; Preparation.EncodeSplitConcat states that the encoding is row by row |
| Preparation.EncodeSplitConcat | components/data_preparation/__init__.py:97-108 | encoding is row by row: it distributes over concatenation |
| Preparation.TransformSplitsSeparately | components/data_preparation/__init__.py:97-108 | each transformed split depends only on the fitted state and that split |
| Preparation.ToFeatures | components/data_preparation/__init__.py:168-170 | a projected row has exactly the `FEATURES` columns, each cell the encoded row's value for that name |
| Preparation.TargetFilter | components/data_preparation/__init__.py:76-78 | `df[mask]` with the mask the split's own prices give: an order-preserving subsequence keeping every copy of a row the mask accepts and no copy of any other |
| Preparation.CleanSplit | components/data_preparation/__init__.py:132-148 | the result is an order-preserving subsequence of the imputed split; of the rows the target filter keeps, every copy of a row passing both filters stays and every other row goes |
| Preparation.BothFiltersCount | components/data_preparation/__init__.py:146-148 | the two filters together keep all copies of a row passing both and none of any other row |
| Preparation.CleanRowEmitsOk | components/data_preparation/__init__.py:146-170 | a clean row projects to 13 cells within the configured bounds, with codes in the categorical cells |
| Preparation.Emit | components/data_preparation/__init__.py:153-170 | row i of the emitted table is input row i encoded with the given fitted state and projected to `FEATURES`; every row is within bounds and fully encoded |
| Preparation.PrepareData | components/data_preparation/__init__.py:131-170 | all three splits are imputed with the training split's fill values; the encoders are fitted on the cleaned training split alone; that one fitted state encodes every split, row for row; every emitted row is within bounds |
| Preparation.PrepareTrainIgnoresHeldOut | components/data_preparation/__init__.py:131-153 | the fitted encoders and the training table do not depend on the validation or test split |
| Preparation.PrepareSplitsNotCrossed | components/data_preparation/__init__.py:151-170 | the validation table does not depend on the test split, nor the test table on the validation split |
| Preparation.FitSeesOnlyCleanRows | components/data_preprocess/__init__.py:101-108 | a training row rejected by either filter leaves the fit unchanged |
| Preprocess.PipelinePreprocessing | components/data_preprocess/__init__.py:78-113 | every split is imputed with the training split's fill values and encoded, row for row, with the one state fitted on the cleaned training split; every returned row is within bounds |
| Preprocess.PreprocessingAgreesWithPreparation | components/data_preprocess/__init__.py:107-113 | the (train, test, valid) constructor order and the (train, val, test) return order cancel: each output equals `prepare_data`'s table for the same split |
| Preprocess.PreprocessingSplitsNotCrossed | components/data_preprocess/__init__.py:107-113 | the returned validation table ignores the test file, and the test table ignores the validation file |
| Records.DropMetadata | components/data_validation/__init__.py:26 | dropping `_id`, `title`, `url` and `post_date` removes those columns and keeps every other column's value |
| Records.ColumnsDeclared | components/data_validation/__init__.py:17-26 | the column views hold exactly the declared columns |
| Records.DroppedColumnOrder | components/data_validation/__init__.py:26 | the remaining columns are the raw ones without the metadata, in order |
| Validation.Clean | components/data_validation/__init__.py:19-24 | no contract of its own: the six placeholder conditions; Validation.CleanRows and Validation.CleanRowsKeepsExactly state that cleaning keeps exactly the rows meeting them |
| Validation.CleanRows | components/data_validation/__init__.py:19-24 | after cleaning, no row holds '-' in the colours, fuels or gearbox, nor '' or '4WD hoặc AWD' as wheel drive; the result is an order-preserving subsequence |
| Validation.CleanRowsKeepsExactly | components/data_validation/__init__.py:19-24 | a row is kept iff none of the six placeholder values appears |
| Validation.MissingValuesKept | components/data_validation/__init__.py:19-24 | a row with missing checked cells survives the cleaning |
| Validation.CleanRowsIdempotent | components/data_validation/__init__.py:19-24 | cleaning a cleaned table changes nothing |
| Validation.CleanAndDrop | components/data_validation/__init__.py:19-26 | one output row per kept row, without the metadata columns and with every other cell unchanged |
| Validation.CleanAndDropColumns | components/data_validation/__init__.py:26 | an output row has a column iff it is a raw column other than the metadata |
| Validation.GetSchema | components/data_validation/__init__.py:54-70 | the schema comes back iff lookup, download and parse all succeed; otherwise `None`, never an error |
| Text.ReplaceAllAbsent | crawling/crawler/pipelines.py:13-18 | `_replace_all` leaves a text with none of the keys unchanged |
| Text.ReplaceAllFixed | crawling/crawler/pipelines.py:13-18 | a text in which every occurring key maps to itself is unchanged |
| Text.ReplaceAllExact | crawling/crawler/pipelines.py:13-18 | a table key that holds no earlier key, and whose value holds no later key, is mapped to its value |
| Text.ReplaceKeyThen | crawling/crawler/pipelines.py:16 | `str.replace` on a key followed by a key-free remainder gives the replacement followed by the remainder |
| Text.ReplaceAllKeyThen | crawling/crawler/pipelines.py:13-18 | a key followed by a remainder becomes the key's value followed by the same remainder, when no other key occurs |
| Text.ReplaceAll | crawling/crawler/pipelines.py:13-18 | no contract of its own: one `str.replace` per table entry, in the table's order; Text.ReplaceAllAbsent, Text.ReplaceAllFixed, Text.ReplaceAllExact and Text.ReplaceAllKeyThen state what it does |
| Text.ReplaceAbsent | crawling/crawler/pipelines.py:16 | `str.replace` with a key that does not occur is the identity |
| Text.Replace | crawling/crawler/pipelines.py:16 | no contract of its own: `str.replace`, a left-to-right scan replacing non-overlapping occurrences; Text.ReplaceAbsent, Text.ReplaceKeyThen and Text.ReplaceSkipsPrefix state what it does |
| Text.ReplaceSkipsPrefix | crawling/crawler/pipelines.py:16 | replacement leaves a prefix that cannot hold the key untouched |
| Text.Split | crawling/crawler/pipelines.py:52 | `str.split` gives at least one piece, no piece holds the separator, and joining the pieces gives the text back |
| Text.SplitJoin | crawling/crawler/pipelines.py:52 | splitting the join of separator-free pieces gives the pieces back |
| Text.SplitNoSeparator | crawling/crawler/pipelines.py:89 | a text without the separator splits into itself |
| Text.Strip | crawling/crawler/spiders/bonbanh.py:43 | the result is a window of the text with only characters of `chars` before and after it, and neither of its ends is such a character |
| Text.StripIdempotent | crawling/crawler/spiders/bonbanh.py:43 | stripping twice is stripping once |
| Text.StripClean | crawling/crawler/spiders/bonbanh.py:43 | a text with clean ends is its own strip |
| Text.Lower | crawling/crawler/pipelines.py:21 | same length, each ASCII capital lower-cased in place and every other character kept (see Left out) |
| Text.LowerIdempotent | crawling/crawler/pipelines.py:21 | lower-casing twice is lower-casing once |
| Text.IsDigits | crawling/crawler/spiders/bonbanh.py:46 | no contract of its own: `str.isdigit`, a non-empty text of ASCII digits; Text.ParseInt states that `int()` succeeds exactly on such a text once stripped |
| Text.ParseInt | crawling/crawler/pipelines.py:136 | `int()` succeeds iff the stripped text is a non-empty run of digits |
| Text.ParseFloat | crawling/crawler/pipelines.py:114-115 | a text of digits reads as its value; a parsed value is never negative (see Left out) |
| Text.NatToStringOfValue | crawling/crawler/pipelines.py:136 | a canonical digit string is the decimal writing of its value |
| Text.ParseIntOfString | crawling/crawler/pipelines.py:136 | `int()` reads back the decimal writing of a number |
| Text.DigitsValueConcat | crawling/crawler/pipelines.py:53 | the digits a + b are worth a * 10^\|b\| + b |
| Text.ParseFloatDecimal | crawling/crawler/pipelines.py:114-115 | `float("<a>.<b>")` is a plus the fraction b |
| Pipelines.NormalizeCarType | crawling/crawler/pipelines.py:20-35 | no contract of its own: lower-case, then the car-type table; the Pipelines.CarType* lemmas state its effect on each site label |
| Pipelines.NormalizeFuels | crawling/crawler/pipelines.py:37-47 | no contract of its own: the fuel table; the Pipelines.Fuel* lemmas state its effect |
| Pipelines.NormalizeGearbox | crawling/crawler/pipelines.py:66-73 | no contract of its own: the gearbox table; the Pipelines.Gearbox* lemmas state its effect |
| Pipelines.NormalizeOrigin | crawling/crawler/pipelines.py:75-83 | no contract of its own: the origin table; the Pipelines.Origin* lemmas state its effect |
| Pipelines.CarTypeConvertible | crawling/crawler/pipelines.py:20-35 | 'Convertible/Cabriolet' normalises to 'convertible' |
| Pipelines.CarTypeVan | crawling/crawler/pipelines.py:20-35 | 'Van/Minivan' normalises to 'van' |
| Pipelines.CarTypePickup | crawling/crawler/pipelines.py:20-35 | the pickup label normalises to 'pickup' |
| Pipelines.CarTypeWithoutSlash | crawling/crawler/pipelines.py:20-35 | a car type without a slash is only lower-cased |
| Pipelines.LowercaseCarTypeFixed | crawling/crawler/pipelines.py:20-35 | a lower-case car type without a slash is its own normal form |
| Pipelines.AllowedCarTypesFixed | crawling/crawler/pipelines.py:20-35 | every car type the cleaning filter allows is its own normal form |
| Pipelines.FuelPetrol | crawling/crawler/pipelines.py:37-47 | 'Xăng' becomes 'gasoline' |
| Pipelines.FuelDieselVi | crawling/crawler/pipelines.py:37-47 | 'Dầu' becomes 'diesel' |
| Pipelines.FuelDiesel | crawling/crawler/pipelines.py:37-47 | 'Diesel' becomes 'diesel' |
| Pipelines.FuelHybrid | crawling/crawler/pipelines.py:37-47 | 'Hybrid' becomes 'hybrid' |
| Pipelines.FuelElectric | crawling/crawler/pipelines.py:37-47 | 'Điện' becomes 'electric' |
| Pipelines.GearboxAutomatic | crawling/crawler/pipelines.py:66-73 | 'Số tự động' becomes 'automatic' |
| Pipelines.GearboxManual | crawling/crawler/pipelines.py:66-73 | 'Số tay' becomes 'manual' |
| Pipelines.GearboxUnknown | crawling/crawler/pipelines.py:66-73 | an unknown label such as 'Số hỗn hợp' passes through |
| Pipelines.OriginImported | crawling/crawler/pipelines.py:75-83 | 'Nhập khẩu' becomes 'imported' |
| Pipelines.OriginImportedLower | crawling/crawler/pipelines.py:75-83 | 'nhập khẩu' becomes 'imported' |
| Pipelines.OriginDomestic | crawling/crawler/pipelines.py:75-83 | 'Lắp ráp trong nước' becomes 'domestic' |
| Pipelines.SiteLabelsReachAllowLists | crawling/crawler/pipelines.py:66-83 | the translated gearbox and origin labels are values the cleaning filter allows |
| Pipelines.FuelsWithoutKey | crawling/crawler/pipelines.py:37-47 | a fuel label containing none of the keys is unchanged |
| Pipelines.FuelsKeyThen | crawling/crawler/pipelines.py:37-47 | a fuel key followed by a suffix becomes its value followed by the suffix |
| Pipelines.GearboxWithoutKey | crawling/crawler/pipelines.py:66-73 | a gearbox label containing none of the keys is unchanged |
| Pipelines.GearboxKeyThen | crawling/crawler/pipelines.py:66-73 | a gearbox key followed by a suffix becomes its value followed by the suffix |
| Pipelines.GearboxManualWithSuffix | crawling/crawler/pipelines.py:66-73 | 'Số tay côn' becomes 'manual côn', which is not an allowed gearbox value |
| Pipelines.OriginWithoutKey | crawling/crawler/pipelines.py:75-83 | an origin label containing none of the keys is unchanged |
| Pipelines.OriginKeyThen | crawling/crawler/pipelines.py:75-83 | an origin key followed by a suffix becomes its value followed by the suffix |
| Pipelines.NormalizeWheelDrive | crawling/crawler/pipelines.py:85-92 | `None` stays `None`; a present value becomes clean: no dash, no edge space, no 'RFD' |
| Pipelines.CleanAfterNormalize | crawling/crawler/pipelines.py:89-90 | the first dash segment, stripped and corrected, is clean |
| Pipelines.RfdShape | crawling/crawler/pipelines.py:90 | the correction keeps the length and only turns some F into W |
| Pipelines.RfdGone | crawling/crawler/pipelines.py:90 | no 'RFD' survives the correction |
| Pipelines.WheelDriveFixedPoints | crawling/crawler/pipelines.py:85-92 | a value is its own normal form iff it is clean |
| Pipelines.WheelDriveIdempotent | crawling/crawler/pipelines.py:85-92 | normalising a normalised wheel drive changes nothing |
| Pipelines.WheelDriveRfd | crawling/crawler/pipelines.py:85-92 | 'RFD - …' becomes 'RWD' |
| Pipelines.ParsedWords | crawling/crawler/pipelines.py:52-60 | one parse result per word, each the `float` of the stripped word without commas |
| Pipelines.NumbersFirst | crawling/crawler/pipelines.py:55-62 | `numbers[0]` exists iff some word parsed, and is the value of the first one |
| Pipelines.NormalizeKmDriven | crawling/crawler/pipelines.py:49-64 | no contract of its own; Pipelines.KmDrivenIsFirstNumber states it |
| Pipelines.KmDrivenIsFirstNumber | crawling/crawler/pipelines.py:49-64 | the km value is the value of the first word that parses, and `None` when none does |
| Pipelines.KmOfNumberAndUnit | crawling/crawler/pipelines.py:49-64 | '<digits> <unit>' reads as the number |
| Pipelines.KmWithThousandsComma | crawling/crawler/pipelines.py:49-64 | '<a>,<b> <unit>', such as '12,000 km', reads as the digits without the comma |
| Pipelines.KmWordOfThousands | crawling/crawler/pipelines.py:53 | a word with a thousands comma parses as its digits without it |
| Pipelines.SplitEngineInfo | crawling/crawler/pipelines.py:106-117 | a capacity is read only when the engine text has a second word, and is never negative (non-negativity comes from the model's `float()`, see Left out); Pipelines.EngineInfoOfWords and Pipelines.EngineInfoOneWord state the reading |
| Pipelines.EngineInfoOfWords | crawling/crawler/pipelines.py:106-117 | on '<fuel> <word> …' the fuel is the first word normalised and the capacity is `float()` of the second word with its comma turned into a point; a word `float()` rejects gives no capacity instead of an error |
| Pipelines.EngineInfoOneWord | crawling/crawler/pipelines.py:106-117 | a one-word engine text is all fuel, normalised, with no capacity |
| Pipelines.EngineInfoTabs | crawling/crawler/pipelines.py:106 | tabs and spaces separate the engine words alike |
| Pipelines.EngineInfoReading | crawling/crawler/pipelines.py:106-117 | '<fuel> <a>,<b> …' reads as the normalised fuel and the decimal a.b |
| Pipelines.NormalizeNumSeats | crawling/crawler/pipelines.py:137-143 | a missing seat count stays missing |
| Pipelines.NumSeatsOfNumberAndUnit | crawling/crawler/pipelines.py:137-143 | '<n> chỗ' reads as n |
| Pipelines.ParseYear | crawling/crawler/pipelines.py:136 | a year is present after conversion iff it was present before |
| Pipelines.YearRoundTrip | crawling/crawler/pipelines.py:136 | a year written in digits reads back as itself |
| Pipelines.ScalePrice | crawling/crawler/pipelines.py:131-134 | a present price is scaled to millions: 1e6 times it is the parsed price (non-negativity comes from the model's `float()`, see Left out) |
| Pipelines.Processable | crawling/crawler/pipelines.py:102-136 | no contract of its own: the item has the car type, engine text, mileage, gearbox and origin that `process_item` reads without a `None` check, and `int()` and `float()` accept its year and price; Pipelines.ProcessItem requires it because the source raises otherwise |
| Pipelines.Normalize | crawling/crawler/pipelines.py:102-167 | title, url, location, branch, model and colours pass through; every converted field comes from its own raw field: year by `int()`, price scaled to millions, origin, gearbox and car type by their tables, km by its first number, seats by `int()` without the unit, fuel and capacity from the engine text, wheel drive by its normaliser, which leaves it clean |
| Pipelines.RoutePost | crawling/crawler/pipelines.py:169-233 | no contract of its own: the branch `process_item` takes; Pipelines.ProcessItem and Pipelines.CrawlCounts state which posts are stored and which counted |
| Pipelines.ProcessItem | crawling/crawler/pipelines.py:169-233 | stored iff mode is 'all' or the post is one day old; the out-of-date counter grows by one exactly for older posts outside mode 'all' |
| Pipelines.ProcessItemReturnsItem | crawling/crawler/pipelines.py:195-233 | every branch returns the converted item |
| Pipelines.ProcessedYear | crawling/crawler/pipelines.py:136 | a year scraped as the digits of y comes out of `process_item` as y |
| Pipelines.ProcessedKm | crawling/crawler/pipelines.py:119-120 | a mileage scraped as '<digits> <unit>' comes out as the value of the digits |
| Pipelines.ProcessedSeats | crawling/crawler/pipelines.py:137-143 | a seat count scraped as '<n> chỗ' comes out as n |
| Pipelines.ProcessedEngine | crawling/crawler/pipelines.py:106-117 | engine text '<fuel> <word> …' comes out as the normalised fuel and `float()` of the word with its comma turned into a point, or no capacity |
| Pipelines.CrawlCounts | crawling/crawler/pipelines.py:169-233 | over a run of posts, mode 'all' stores all and counts none; otherwise exactly the one-day-old posts are stored and the older ones counted |
| Spider.PagePieces | crawling/crawler/spiders/bonbanh.py:40-45 | no contract of its own: the stripped, non-empty '/' pieces of the indicator; Spider.PageTextOf, Spider.ExtractPageReads and Spider.ExtractPageClosingParenthesis state what it gives |
| Spider.PairOf | crawling/crawler/spiders/bonbanh.py:45-51 | a pair is returned iff exactly two pieces are all digits; both numbers or neither |
| Spider.ExtractPage | crawling/crawler/spiders/bonbanh.py:40-51 | the current and last page come both or neither |
| Spider.PairOfNumbers | crawling/crawler/spiders/bonbanh.py:46-49 | two numeric pieces are read in their order |
| Spider.PairOfOneNumber | crawling/crawler/spiders/bonbanh.py:46-51 | one numeric piece gives no pair |
| Spider.ExtractPageReads | crawling/crawler/spiders/bonbanh.py:40-49 | 'Trang x/y' reads as (x, y) |
| Spider.ExtractPageClosingParenthesis | crawling/crawler/spiders/bonbanh.py:40-51 | 'Trang x/y)' gives (None, None): the parenthesis spoils the last piece |
| Spider.PageTextOf | crawling/crawler/spiders/bonbanh.py:41-43 | 'Trang ' + w reduces to w before splitting |
| Spider.LastSegment | crawling/crawler/spiders/bonbanh.py:60 | no contract of its own: the stripped last comma segment of the URL; Spider.ActualPage and Spider.NextPageRoundTrip state what it yields |
| Spider.ActualPage | crawling/crawler/spiders/bonbanh.py:60-61 | the URL names a page iff its stripped last comma segment is all digits |
| Spider.NextPageUrl | crawling/crawler/spiders/bonbanh.py:82 | no contract of its own; Spider.NextPageRoundTrip states that the address asks for page n and keeps the base address |
| Spider.NextPageRoundTrip | crawling/crawler/spiders/bonbanh.py:80-82 | the address built for page n asks for page n and keeps the base address |
| Spider.OnPage | crawling/crawler/spiders/bonbanh.py:66 | no contract of its own: the URL names a page and the indicator's current page equals it; Spider.FollowPage and Spider.NextPagePassesCheck state its effect |
| Spider.FollowPage | crawling/crawler/spiders/bonbanh.py:53-85 | nothing is requested off-page; on page, one request per item link carrying the same index's fields; a next page iff current + 1 ≤ last and the counter is within the limit, asking for current + 1 |
| Spider.NextPagePassesCheck | crawling/crawler/spiders/bonbanh.py:60-85 | the next page, served with the following indicator, passes the page check |
| Spider.CleanKey | crawling/crawler/spiders/bonbanh.py:110 | a cleaned label holds no no-break space and no tab, space or colon at either end |
| Spider.CleanKeyIdempotent | crawling/crawler/spiders/bonbanh.py:110 | cleaning a cleaned label changes nothing |
| Spider.CleanKeyOfClean | crawling/crawler/spiders/bonbanh.py:110 | a label already clean is its own cleaning |
| Spider.Keys | crawling/crawler/spiders/bonbanh.py:107-117 | one label per detail row, in order, each the row's label cleaned |
| Spider.Values | crawling/crawler/spiders/bonbanh.py:107-117 | one value per detail row, in order, each the row's value with spaces and tabs stripped |
| Spider.IndexOf | crawling/crawler/spiders/bonbanh.py:124 | `list.index` is the position of the first occurrence |
| Spider.RemoveFirst | crawling/crawler/spiders/bonbanh.py:120 | `list.remove` drops the first occurrence: the labels before it stay in place and the ones after it move down by one |
| Spider.RemoveFirstCounts | crawling/crawler/spiders/bonbanh.py:120 | exactly one copy of the removed label goes; every other label keeps its count |
| Spider.DetailKeys | crawling/crawler/spiders/bonbanh.py:119-120 | the label list loses one entry when the seat-count label is present, so it is never longer than the value list |
| Spider.Lookup | crawling/crawler/spiders/bonbanh.py:122-162 | a label's value is present iff the label is in the list |
| Spider.Field | crawling/crawler/spiders/bonbanh.py:119-162 | no contract of its own: the lookup in the label list after the seat-count label is removed; Spider.FieldWithoutSeats, Spider.FieldAfterSeats and Spider.SeatsShiftIntoEngine state what it reads |
| Spider.IndexAfterRemove | crawling/crawler/spiders/bonbanh.py:119-124 | removing the seat-count label moves a later label's index down by one and leaves an earlier one in place |
| Spider.FieldWithoutSeats | crawling/crawler/spiders/bonbanh.py:122-162 | without a seat-count row, each label reads the value of the first row carrying it |
| Spider.FieldAfterSeats | crawling/crawler/spiders/bonbanh.py:119-162 | with a seat-count row, a later label reads the value of the row before its own |
| Spider.SeatsShiftIntoEngine | crawling/crawler/spiders/bonbanh.py:119-147 | an engine row right after the seat-count row reads the seat count's value |
| Spider.ParseInfo | crawling/crawler/spiders/bonbanh.py:88-184 | branch and model are set iff the breadcrumb has three entries; page fields pass through; each detail field is the lookup of its label |

## Left out

- Artifact and file I/O: the wandb runs and artifacts, the CSV reads, encoder pickling,
  logging and directory creation. None of it affects what the tables hold.
- Encoder internals: `JamesSteinEncoder` and `OrdinalEncoder` come from an external
  library. Their behaviour on unseen categories is not modelled; they are abstract
  `fit`/`encode` functions.
- Schema inference (`tfdv`) and the train/test split inside `infer_schema`: an external
  library and random sampling.
- `filter_outline_target`: the z-score mask is float statistics from scipy over the
  split's prices. The mask is a parameter, a function of the whole split, applied row by
  row; no idempotence is claimed, since the statistics change once rows go.
- The imputation statistics: `mode()[0]` and `float(int(mean()))` are passed in as fill
  values computed from the training split.
- Pipelines.ScalePrice: the division by 1e6 is exact over the reals, not IEEE double
  rounding. Its non-negative result reflects the model's `float()`, which reads no
  sign; the source would store a negative price.
- Pipelines.SplitEngineInfo: the capacity is never negative only because the model's
  `float()` reads no sign; `float('-1.5')` is -1.5 in the source. The capacity is the
  exact decimal value, not the nearest double.
- `_normalize_post_date` and `date.today()`: date parsing and the clock. `process_item`
  receives the post's age in days, and the item carries no post date.
- The MongoDB upload and its replace-on-failure fallback in `process_item`: network
  calls. The model records only whether the item is stored.
- Spider.PairOf: `isdigit` is modelled on ASCII digits. Python's `isdigit` also accepts
  characters such as '²', on which the following `int()` raises; the model reads no
  such piece as a number.
- Spider.ActualPage: the same ASCII-only `isdigit`; a last URL segment such as '²'
  would make the source's `int()` raise, where the model gives no page.
- Text.ParseInt: reads ASCII decimal digits only. Python's `int()` also accepts signs,
  underscores and non-ASCII digits.
- Text.ParseFloat: reads ASCII digits with at most one decimal point and at least one
  digit (`5`, `5.`, `.5`, `5.25`), with surrounding whitespace.
  Python's `float()` also accepts signs, exponents, underscores between digits (`'1_5'`
  is 15.0), `inf` and `nan`. The model reads the exact decimal, not the nearest double:
  `float('9.99999999999999999')` is 10.0 in Python and fails the `< 10` engine bound,
  while the model keeps it. Every value it returns is non-negative, which the source
  does not promise.
- Text.Lower: lower-cases ASCII capitals only, not the full Unicode case mapping.
- Latent crashes are preconditions, not modelled error paths:
  - `.replace` on a missing engine text;
  - `split` on a missing km text;
  - `.lower()` on a missing car type;
  - `.replace` on a missing gearbox or origin;
  - `int()` or `float()` on a non-numeric year or price;
  - `.replace` on a missing detail label or value.
- The scrapy requests, CSS selection, `response.urljoin` and the HTTP layer: the
  spider's inputs are the selected texts, and the URL join is a parameter.
- `Spider.Parse` carries no contract of its own: it hands the parsed indicator to
  `Spider.FollowPage`, which carries the contract.
- The serving, training and UI code (`trainer`, `api.py`, `inference`, `app.py`), the
  upload helpers and the data-extraction fetch: not part of this model.
- The copy of the validation filter in `test-pipeline.py`: it is modelled once, as
  `Validation.CleanRows`.

=== FILE: config.dfy ===
/** The data constants of `configs/config.py` (repeated verbatim at the top of
    `components/data_preparation/__init__.py`): the feature lists and `CONFIG_DATA`,
    the numeric limits and the categorical allow-lists used by the cleaning filters. */
module Config {

  /** `numeric_features` */
  const NumericFeatures: seq<string> := ["year", "price", "km_driven", "num_seats", "engine_capacity"]

  /** `category_features` */
  const CategoryFeatures: seq<string> :=
    ["branch", "model", "origin", "external_color", "internal_color", "gearbox", "wheel_drive", "car_type"]

  /** `FEATURES = numeric_features + category_features`: the columns of every emitted split. */
  const Features: seq<string> := NumericFeatures + CategoryFeatures

  /** `category_other`: the columns the shared ordinal encoder handles, in its column order. */
  const CategoryOther: seq<string> :=
    ["external_color", "internal_color", "origin", "gearbox", "wheel_drive", "car_type"]

  /** An upper limit of `CONFIG_DATA['numeric']`: a number or `float('inf')`. */
  datatype Limit = Finite(value: real) | Infinity

  /** `x < limit` with Python's float comparison; every finite number is below infinity. */
  predicate Below(x: real, limit: Limit) {
    limit.Infinity? || x < limit.value
  }

  datatype Bounds = Bounds(lower: real, upper: Limit)

  /** The keys of `CONFIG_DATA['numeric']`. */
  datatype BoundedField = Year | KmDriven | NumSeats | EngineCapacity {
    function Name(): string {
      match this
      case Year => "year"
      case KmDriven => "km_driven"
      case NumSeats => "num_seats"
      case EngineCapacity => "engine_capacity"
    }
  }

  /** `CONFIG_DATA['numeric'][f]`: `lower_limit` and `upper_limit`. */
  function NumericBounds(f: BoundedField): Bounds {
    match f
    case Year => Bounds(2007.0, Infinity)
    case KmDriven => Bounds(0.0, Finite(1000000000.0))
    case NumSeats => Bounds(0.0, Finite(30.0))
    case EngineCapacity => Bounds(0.0, Finite(10.0))
  }

  /** The keys of `CONFIG_DATA['category']`. */
  datatype ListedField = Origin | WheelDrive | CarType | Gearbox {
    function Name(): string {
      match this
      case Origin => "origin"
      case WheelDrive => "wheel_drive"
      case CarType => "car_type"
      case Gearbox => "gearbox"
    }
  }

  /** `CONFIG_DATA['category'][f]`: the values a cleaned row may hold. */
  function AllowedValues(f: ListedField): seq<string> {
    match f
    case Origin => ["domestic", "imported"]
    case WheelDrive => ["FWD", "RWD", "4WD", "AWD"]
    case CarType => ["sedan", "crossover", "hatchback", "pickup", "suv", "van", "coupe", "truck", "convertible", "wagon"]
    case Gearbox => ["automatic", "manual"]
  }

  predicate Distinct(s: seq<string>) {
    forall i, j :: 0 <= i < j < |s| ==> s[i] != s[j]
  }

  /** The emitted column list: 13 distinct names, the numeric ones (price among them)
      first, then the categorical ones. `location` and `fuels` are not among them, so
      the projection drops both. */
  lemma FeaturesLayout()
    ensures |Features| == 13 && Distinct(Features)
    ensures Features[..5] == NumericFeatures && Features[5..] == CategoryFeatures
    ensures "price" in Features
    ensures "location" !in Features && "fuels" !in Features
  {
  }

  /** `category_other` is the categorical features without `branch` and `model`, which
      get their own target encoders. */
  lemma CategoryOtherPartition()
    ensures Distinct(CategoryOther)
    ensures forall c :: c in CategoryOther ==> c in CategoryFeatures
    ensures "branch" !in CategoryOther && "model" !in CategoryOther
    ensures forall c :: c in CategoryFeatures ==> c in CategoryOther || c == "branch" || c == "model"
    ensures |CategoryFeatures| == |CategoryOther| + 2
  {
  }

  /** Every allow-listed field is categorical and handled by the shared ordinal encoder;
      every bounded field is numeric. */
  lemma ConfiguredFieldsAreFeatures()
    ensures forall f: ListedField :: f.Name() in CategoryOther
    ensures forall f: BoundedField :: f.Name() in NumericFeatures
  {
  }

  /** Each numeric range is non-empty, and only `year` is unbounded above. */
  lemma BoundsOrdered()
    ensures forall f: BoundedField :: Below(NumericBounds(f).lower, NumericBounds(f).upper)
    ensures forall f: BoundedField :: NumericBounds(f).upper.Infinity? <==> f == Year
  {
  }

  /** The allow-lists have 2, 4, 10 and 2 distinct entries. */
  lemma AllowListsDistinct()
    ensures forall f: ListedField :: Distinct(AllowedValues(f))
    ensures |AllowedValues(Origin)| == 2 && |AllowedValues(WheelDrive)| == 4
    ensures |AllowedValues(CarType)| == 10 && |AllowedValues(Gearbox)| == 2
  {
  }
}

=== FILE: frames.dfy ===
/** Row selection on a table, the one pandas operation the cleaning code is built from:
    `df[mask]` and `df.loc[df.col.apply(pred)]` keep the rows whose mask is true, in
    their original order. A table is a `seq` of rows. */
module Frames {

  /** `a` is `b` with some elements left out, the rest in their original order. */
  predicate IsSubsequence<T(==)>(a: seq<T>, b: seq<T>)
    decreases |b|
  {
    |a| == 0 || (|b| > 0 && ((a[0] == b[0] && IsSubsequence(a[1..], b[1..])) || IsSubsequence(a, b[1..])))
  }

  /** The rows of `rows` satisfying `keep`, order preserved. */
  function Filter<T(==, !new)>(rows: seq<T>, keep: T -> bool): (r: seq<T>)
    ensures |r| <= |rows|
    ensures forall x {:trigger x in r} :: x in r <==> x in rows && keep(x)
    decreases |rows|
  {
    if |rows| == 0 then []
    else if keep(rows[0]) then
      var rest := Filter(rows[1..], keep);
      assert rows == [rows[0]] + rows[1..];
      [rows[0]] + rest
    else
      Filter(rows[1..], keep)
  }

  /** The selected rows are the table with some rows left out, the others in their
      original order. */
  lemma {:induction false} FilterIsSubsequence<T(!new)>(rows: seq<T>, keep: T -> bool)
    ensures IsSubsequence(Filter(rows, keep), rows)
    decreases |rows|
  {
    if |rows| > 0 {
      FilterIsSubsequence(rows[1..], keep);
      if keep(rows[0]) {
        assert Filter(rows, keep)[1..] == Filter(rows[1..], keep);
      }
    }
  }

  /** Selection keeps every copy of a row the mask accepts and no copy of a row it
      rejects. */
  lemma {:induction false} FilterCounts<T(!new)>(rows: seq<T>, keep: T -> bool)
    ensures forall x :: multiset(Filter(rows, keep))[x] == if keep(x) then multiset(rows)[x] else 0
    decreases |rows|
  {
    if |rows| > 0 {
      FilterCounts(rows[1..], keep);
      assert rows == [rows[0]] + rows[1..];
      if keep(rows[0]) {
        assert Filter(rows, keep) == [rows[0]] + Filter(rows[1..], keep);
      }
    }
  }

  /** Leaving out elements twice is leaving out elements once. */
  lemma {:induction false} SubsequenceTransitive<T>(a: seq<T>, b: seq<T>, c: seq<T>)
    requires IsSubsequence(a, b) && IsSubsequence(b, c)
    ensures IsSubsequence(a, c)
    decreases |b| + |c|
  {
    if |a| > 0 {
      if a[0] == b[0] && IsSubsequence(a[1..], b[1..]) {
        if b[0] == c[0] && IsSubsequence(b[1..], c[1..]) {
          SubsequenceTransitive(a[1..], b[1..], c[1..]);
        } else {
          SubsequenceTransitive(a, b, c[1..]);
        }
      } else {
        SubsequenceTransitive(a, b[1..], c) by {
          DropFirst(b, c);
        }
      }
    }
  }

  lemma {:induction false} DropFirst<T>(b: seq<T>, c: seq<T>)
    requires |b| > 0 && IsSubsequence(b, c)
    ensures IsSubsequence(b[1..], c)
    decreases |c|
  {
    if b[0] == c[0] && IsSubsequence(b[1..], c[1..]) {
      SubsequenceOfTail(b[1..], c);
    } else {
      DropFirst(b, c[1..]);
      SubsequenceOfTail(b[1..], c);
    }
  }

  lemma SubsequenceOfTail<T>(a: seq<T>, c: seq<T>)
    requires |c| > 0 && IsSubsequence(a, c[1..])
    ensures IsSubsequence(a, c)
  {
  }

  /** Selecting rows and then selecting again with the same mask changes nothing. */
  lemma {:induction false} FilterIdempotent<T(!new)>(rows: seq<T>, keep: T -> bool)
    ensures Filter(Filter(rows, keep), keep) == Filter(rows, keep)
    decreases |rows|
  {
    if |rows| > 0 {
      FilterIdempotent(rows[1..], keep);
      if keep(rows[0]) {
        var f := Filter(rows, keep);
        assert f[1..] == Filter(rows[1..], keep);
      }
    }
  }

  /** A table whose every row passes comes back whole. */
  lemma {:induction false} FilterAllPass<T(!new)>(rows: seq<T>, keep: T -> bool)
    requires forall i :: 0 <= i < |rows| ==> keep(rows[i])
    ensures Filter(rows, keep) == rows
    decreases |rows|
  {
    if |rows| > 0 {
      FilterAllPass(rows[1..], keep);
      assert rows == [rows[0]] + rows[1..];
    }
  }

  /** Two successive selections are one selection by the conjunction. */
  lemma {:induction false} FilterCompose<T(!new)>(rows: seq<T>, p: T -> bool, q: T -> bool, both: T -> bool)
    requires forall x :: both(x) == (p(x) && q(x))
    ensures Filter(Filter(rows, p), q) == Filter(rows, both)
    decreases |rows|
  {
    if |rows| > 0 {
      FilterCompose(rows[1..], p, q, both);
      if p(rows[0]) {
        var f := Filter(rows, p);
        assert f[1..] == Filter(rows[1..], p);
      }
    }
  }

  /** Four successive selections are one selection by the conjunction of the four. */
  lemma FilterComposeFour<T(!new)>(rows: seq<T>, p1: T -> bool, p2: T -> bool, p3: T -> bool, p4: T -> bool, all: T -> bool)
    requires forall x :: all(x) == (p1(x) && p2(x) && p3(x) && p4(x))
    ensures Filter(Filter(Filter(Filter(rows, p1), p2), p3), p4) == Filter(rows, all)
  {
    var p12 := (x: T) => p1(x) && p2(x);
    var p123 := (x: T) => p12(x) && p3(x);
    FilterCompose(rows, p1, p2, p12);
    FilterCompose(rows, p12, p3, p123);
    FilterCompose(rows, p123, p4, all);
  }

  /** Selection works row by row: it distributes over concatenation. */
  lemma {:induction false} FilterConcat<T(!new)>(a: seq<T>, b: seq<T>, keep: T -> bool)
    ensures Filter(a + b, keep) == Filter(a, keep) + Filter(b, keep)
    decreases |a|
  {
    if |a| > 0 {
      FilterConcat(a[1..], b, keep);
      assert (a + b)[1..] == a[1..] + b;
    } else {
      assert a + b == b;
    }
  }

  /** A rejected row may be added anywhere without changing the selection. */
  lemma FilterSkipsRejected<T(!new)>(a: seq<T>, x: T, b: seq<T>, keep: T -> bool)
    requires !keep(x)
    ensures Filter(a + [x] + b, keep) == Filter(a + b, keep)
  {
    assert [x][1..] == [];
    assert Filter([x], keep) == [];
    FilterConcat(a, [x], keep);
    assert Filter(a + [x], keep) == Filter(a, keep);
    FilterConcat(a + [x], b, keep);
    FilterConcat(a, b, keep);
  }
}

=== FILE: items.dfy ===
/** `crawling/crawler/items.py`: the raw item the spider scrapes and the typed item the
    pipeline produces from it. */
module Items {
  import opened Wrappers

  /** `BonBanhRawItem`: what the spider scraped, every field optional text. */
  datatype RawItem = RawItem(
    title: Option<string>,
    url: Option<string>,
    year: Option<string>,
    price: Option<string>,
    location: Option<string>,
    branch: Option<string>,
    model: Option<string>,
    rawOrigin: Option<string>,
    rawKmDriven: Option<string>,
    externalColor: Option<string>,
    internalColor: Option<string>,
    numSeats: Option<string>,
    engineInfo: Option<string>,
    gearbox: Option<string>,
    wheelDrive: Option<string>,
    carType: Option<string>,
    rawPostDate: Option<string>)

  /** `BonBanhItem` without its post date: the date only feeds the storage decision,
      which receives the post's age in days instead. */
  datatype Item = Item(
    title: Option<string>,
    url: Option<string>,
    year: Option<nat>,
    price: Option<real>,
    location: Option<string>,
    branch: Option<string>,
    model: Option<string>,
    origin: Option<string>,
    kmDriven: Option<real>,
    externalColor: Option<string>,
    internalColor: Option<string>,
    numSeats: Option<nat>,
    fuels: Option<string>,
    engineCapacity: Option<real>,
    gearbox: Option<string>,
    wheelDrive: Option<string>,
    carType: Option<string>)
}

=== FILE: pipelines.dfy ===
/** `crawling/crawler/pipelines.py`: `BonBanhPipeline`, which turns a scraped listing
    (`BonBanhRawItem`, every field an optional string) into a stored listing
    (`BonBanhItem`). Site labels become canonical values through fixed replacement
    tables, numbers are parsed from their display text, and the age of the post decides
    whether the listing is stored or counted as out of date.

    The post date arrives as a number of days since posting: the date parsing and the
    clock are outside this model, and so are the database calls. */
module Pipelines {
  import opened Wrappers
  import opened Frames
  import opened Text
  import Config
  import opened Items

  // ---------------------------------------------------------------------------
  // Replacement tables, in dictionary order

  /** `_normalize_car_type`'s table. The pickup key is stored with combining accents
      (a + U+0301, a + U+0309), exactly as the source spells it. */
  const CarTypeTable: seq<(string, string)> := [
    ("crossover", "crossover"),
    ("suv", "suv"),
    ("sedan", "sedan"),
    ("convertible/cabriolet", "convertible"),
    ("coupe", "coupe"),
    ("hatchback", "hatchback"),
    ("van/minivan", "van"),
    ("ba\U{301}n ta\U{309}i / pickup", "pickup"),
    ("wagon", "wagon")]

  const Petrol: string := "X\U{103}ng"
  const DieselVi: string := "D\U{1EA7}u"
  const Electric: string := "\U{110}i\U{1EC7}n"

  /** `_normalize_fuels`'s table. */
  const FuelTable: seq<(string, string)> := [
    (Petrol, "gasoline"),
    (DieselVi, "diesel"),
    ("Diesel", "diesel"),
    ("Hybrid", "hybrid"),
    (Electric, "electric")]

  const AutomaticVi: string := "S\U{1ED1} t\U{1EF1} \U{111}\U{1ED9}ng"
  const ManualVi: string := "S\U{1ED1} tay"
  /** A gearbox label the table does not know ("mixed"). */
  const MixedVi: string := "S\U{1ED1} h\U{1ED7}n h\U{1EE3}p"

  /** `_normalize_gearbox`'s table. */
  const GearboxTable: seq<(string, string)> := [(AutomaticVi, "automatic"), (ManualVi, "manual")]

  const ImportedVi: string := "Nh\U{1EAD}p kh\U{1EA9}u"
  const ImportedLowerVi: string := "nh\U{1EAD}p kh\U{1EA9}u"
  const DomesticVi: string := "L\U{1EAF}p r\U{E1}p trong n\U{1B0}\U{1EDB}c"

  /** `_normalize_origin`'s table. */
  const OriginTable: seq<(string, string)> := [(ImportedVi, "imported"), (ImportedLowerVi, "imported"), (DomesticVi, "domestic")]

  /** The unit after the seat count ("seats"). */
  const SeatsUnit: string := "ch\U{1ED7}"

  // ---------------------------------------------------------------------------
  // The normalisers

  /** `_normalize_car_type`: lower-case first, then the table. */
  function NormalizeCarType(carType: string): string {
    ReplaceAll(Lower(carType), CarTypeTable)
  }

  function NormalizeFuels(fuels: string): string {
    ReplaceAll(fuels, FuelTable)
  }

  function NormalizeGearbox(gearbox: string): string {
    ReplaceAll(gearbox, GearboxTable)
  }

  function NormalizeOrigin(origin: string): string {
    ReplaceAll(origin, OriginTable)
  }

  // ---------------------------------------------------------------------------
  // What the tables do to the labels the site shows

  /** The car-type labels with a slash map to their first name, the mixed-case ones
      included. */
  lemma CarTypeConvertible()
    ensures NormalizeCarType("Convertible/Cabriolet") == "convertible"
  {
    LowerConvertible();
    ConvertibleKey();
  }

  lemma LowerConvertible()
    ensures Lower("Convertible/Cabriolet") == "convertible/cabriolet"
  {
  }

  lemma ConvertibleKey()
    ensures ReplaceAll("convertible/cabriolet", CarTypeTable) == "convertible"
  {
    ReplaceAllExactBy(CarTypeTable[3].0, CarTypeTable, 3, ['s', 's', 's', ' ', 'p', 'h', '/', '/', 'w']);
  }

  lemma CarTypeVan()
    ensures NormalizeCarType("Van/Minivan") == "van"
  {
    var key := "van/minivan";
    assert Lower("Van/Minivan") == key;
    ReplaceAllExactBy(key, CarTypeTable, 6, ['s', 's', 's', 'c', 'c', 'c', ' ', '/', 'w']);
  }

  lemma CarTypePickup()
    ensures NormalizeCarType("B\U{61}\U{301}n t\U{61}\U{309}i / Pickup") == "pickup"
  {
    LowerPickup();
    PickupKey();
  }

  lemma LowerPickup()
    ensures Lower("B\U{61}\U{301}n t\U{61}\U{309}i / Pickup") == CarTypeTable[7].0
  {
  }

  lemma PickupKey()
    ensures ReplaceAll(CarTypeTable[7].0, CarTypeTable) == "pickup"
  {
    ReplaceAllExactBy(CarTypeTable[7].0, CarTypeTable, 7, ['r', 's', 's', 'r', 'o', 'h', 'v', ' ', 'w']);
  }

  /** Every entry either maps a name to itself or has a slash in its key. */
  lemma CarTypeTableShape()
    ensures forall j :: 0 <= j < |CarTypeTable| ==>
      |CarTypeTable[j].0| > 0 && (CarTypeTable[j].0 == CarTypeTable[j].1 || '/' in CarTypeTable[j].0)
  {
  }

  /** A car type without a slash is only lower-cased: no key that rewrites anything can
      occur in it. */
  lemma CarTypeWithoutSlash(carType: string)
    requires '/' !in carType
    ensures NormalizeCarType(carType) == Lower(carType)
  {
    var lowered := Lower(carType);
    assert '/' !in lowered by {
      forall i | 0 <= i < |lowered|
        ensures lowered[i] != '/'
      {
        assert carType[i] != '/';
      }
    }
    CarTypeTableShape();
    forall j | 0 <= j < |CarTypeTable|
      ensures CarTypeTable[j].0 == CarTypeTable[j].1 || !Occurs(lowered, CarTypeTable[j].0)
    {
      if CarTypeTable[j].0 != CarTypeTable[j].1 {
        CharAbsent(lowered, CarTypeTable[j].0, '/');
      }
    }
    ReplaceAllFixed(lowered, CarTypeTable);
  }

  /** A lower-case car type without a slash is its own normal form. */
  lemma LowercaseCarTypeFixed(c: string)
    requires '/' !in c
    requires forall i :: 0 <= i < |c| ==> !('A' <= c[i] <= 'Z')
    ensures NormalizeCarType(c) == c
  {
    CarTypeWithoutSlash(c);
    LowerOfLowercase(c);
  }

  /** Every car type the cleaning filter allows is its own normal form. */
  lemma AllowedCarTypesFixed(c: string)
    requires c in Config.AllowedValues(Config.CarType)
    ensures NormalizeCarType(c) == c
  {
    AllowedCarTypesPlain();
    LowercaseCarTypeFixed(c);
  }

  /** The allowed car types are lower-case and have no slash. */
  lemma AllowedCarTypesPlain()
    ensures forall c :: c in Config.AllowedValues(Config.CarType) ==>
      '/' !in c && forall i :: 0 <= i < |c| ==> !('A' <= c[i] <= 'Z')
  {
    forall c | c in Config.AllowedValues(Config.CarType)
      ensures '/' !in c && forall i :: 0 <= i < |c| ==> !('A' <= c[i] <= 'Z')
    {
      PlainWord(c);
    }
  }

  /** A word made of lower-case letters and hyphens only. */
  lemma PlainWord(c: string)
    requires forall i :: 0 <= i < |c| ==> 'a' <= c[i] <= 'z' || c[i] == '-'
    ensures '/' !in c && forall i :: 0 <= i < |c| ==> !('A' <= c[i] <= 'Z')
  {
  }

  lemma FuelPetrol()
    ensures NormalizeFuels(Petrol) == "gasoline"
  {
    ReplaceAllExactBy(Petrol, FuelTable, 0, [' ', 'D', 'D', 'H', '\U{110}']);
  }

  lemma FuelDieselVi()
    ensures NormalizeFuels(DieselVi) == "diesel"
  {
    ReplaceAllExactBy(DieselVi, FuelTable, 1, ['X', ' ', 'D', 'H', '\U{110}']);
  }

  lemma FuelDiesel()
    ensures NormalizeFuels("Diesel") == "diesel"
  {
    ReplaceAllExactBy("Diesel", FuelTable, 2, ['X', '\U{1EA7}', ' ', 'H', '\U{110}']);
  }

  lemma FuelHybrid()
    ensures NormalizeFuels("Hybrid") == "hybrid"
  {
    ReplaceAllExactBy("Hybrid", FuelTable, 3, ['X', 'D', 'D', ' ', '\U{110}']);
  }

  lemma FuelElectric()
    ensures NormalizeFuels(Electric) == "electric"
  {
    ReplaceAllExactBy(Electric, FuelTable, 4, ['X', 'D', 'D', 'H', ' ']);
  }

  /** The two known gearbox labels are translated; any other label passes through. */
  lemma GearboxAutomatic()
    ensures NormalizeGearbox(AutomaticVi) == "automatic"
  {
    ReplaceAllExactBy(AutomaticVi, GearboxTable, 0, [' ', 'S']);
  }

  lemma GearboxManual()
    ensures NormalizeGearbox(ManualVi) == "manual"
  {
    ReplaceAllExactBy(ManualVi, GearboxTable, 1, ['\U{1EF1}', ' ']);
  }

  lemma GearboxUnknown()
    ensures NormalizeGearbox(MixedVi) == MixedVi
  {
    ReplaceAllAbsentBy(MixedVi, GearboxTable, ['\U{1EF1}', 't']);
  }

  /** Both spellings of "imported" and the "assembled domestically" label are translated. */
  lemma OriginImported()
    ensures NormalizeOrigin(ImportedVi) == "imported"
  {
    ReplaceAllExactBy(ImportedVi, OriginTable, 0, [' ', '\U{1EAD}', 'L']);
  }

  lemma OriginImportedLower()
    ensures NormalizeOrigin(ImportedLowerVi) == "imported"
  {
    ReplaceAllExactBy(ImportedLowerVi, OriginTable, 1, ['N', ' ', 'L']);
  }

  lemma OriginDomestic()
    ensures NormalizeOrigin(DomesticVi) == "domestic"
  {
    ReplaceAllExactBy(DomesticVi, OriginTable, 2, ['N', '\U{1EAD}', ' ']);
  }

  /** The translated gearbox and origin labels are values the cleaning filter allows. */
  lemma SiteLabelsReachAllowLists()
    ensures NormalizeGearbox(AutomaticVi) in Config.AllowedValues(Config.Gearbox)
    ensures NormalizeGearbox(ManualVi) in Config.AllowedValues(Config.Gearbox)
    ensures NormalizeOrigin(ImportedVi) in Config.AllowedValues(Config.Origin)
    ensures NormalizeOrigin(ImportedLowerVi) in Config.AllowedValues(Config.Origin)
    ensures NormalizeOrigin(DomesticVi) in Config.AllowedValues(Config.Origin)
  {
    GearboxAutomatic();
    GearboxManual();
    OriginImported();
    OriginImportedLower();
    OriginDomestic();
  }

  // ---------------------------------------------------------------------------
  // The fuel, gearbox and origin tables on any label

  /** `_replace_all` rewrites substrings, not whole labels. A label holding none of the
      keys passes through unchanged; a key followed by a suffix becomes the key's value
      followed by the same suffix. */
  lemma FuelsWithoutKey(fuels: string)
    requires forall j :: 0 <= j < |FuelTable| ==> !Occurs(fuels, FuelTable[j].0)
    ensures NormalizeFuels(fuels) == fuels
  {
    ReplaceAllAbsent(fuels, FuelTable);
  }

  lemma FuelsKeyThen(k: nat, rest: string)
    requires k < |FuelTable| && !Occurs(rest, FuelTable[k].0)
    requires forall j :: 0 <= j < k ==> !Occurs(FuelTable[k].0 + rest, FuelTable[j].0)
    requires forall j :: k < j < |FuelTable| ==> !Occurs(FuelTable[k].1 + rest, FuelTable[j].0)
    ensures NormalizeFuels(FuelTable[k].0 + rest) == FuelTable[k].1 + rest
  {
    ReplaceAllKeyThen(FuelTable, k, rest);
  }

  lemma GearboxWithoutKey(gearbox: string)
    requires forall j :: 0 <= j < |GearboxTable| ==> !Occurs(gearbox, GearboxTable[j].0)
    ensures NormalizeGearbox(gearbox) == gearbox
  {
    ReplaceAllAbsent(gearbox, GearboxTable);
  }

  lemma GearboxKeyThen(k: nat, rest: string)
    requires k < |GearboxTable| && !Occurs(rest, GearboxTable[k].0)
    requires forall j :: 0 <= j < k ==> !Occurs(GearboxTable[k].0 + rest, GearboxTable[j].0)
    requires forall j :: k < j < |GearboxTable| ==> !Occurs(GearboxTable[k].1 + rest, GearboxTable[j].0)
    ensures NormalizeGearbox(GearboxTable[k].0 + rest) == GearboxTable[k].1 + rest
  {
    ReplaceAllKeyThen(GearboxTable, k, rest);
  }

  /** "Số tay côn" (manual, with clutch) keeps its suffix, so the label the pipeline
      stores is not one the cleaning filter allows. */
  lemma GearboxManualWithSuffix()
    ensures NormalizeGearbox(ManualVi + " c\U{F4}n") == "manual c\U{F4}n"
    ensures NormalizeGearbox(ManualVi + " c\U{F4}n") !in Config.AllowedValues(Config.Gearbox)
  {
    CharAbsent(" c\U{F4}n", ManualVi, 'y');
    CharAbsent(ManualVi + " c\U{F4}n", AutomaticVi, '\U{1EF1}');
    GearboxKeyThen(1, " c\U{F4}n");
  }

  lemma OriginWithoutKey(origin: string)
    requires forall j :: 0 <= j < |OriginTable| ==> !Occurs(origin, OriginTable[j].0)
    ensures NormalizeOrigin(origin) == origin
  {
    ReplaceAllAbsent(origin, OriginTable);
  }

  lemma OriginKeyThen(k: nat, rest: string)
    requires k < |OriginTable| && !Occurs(rest, OriginTable[k].0)
    requires forall j :: 0 <= j < k ==> !Occurs(OriginTable[k].0 + rest, OriginTable[j].0)
    requires forall j :: k < j < |OriginTable| ==> !Occurs(OriginTable[k].1 + rest, OriginTable[j].0)
    ensures NormalizeOrigin(OriginTable[k].0 + rest) == OriginTable[k].1 + rest
  {
    ReplaceAllKeyThen(OriginTable, k, rest);
  }

  // ---------------------------------------------------------------------------
  // Wheel drive

  /** What `_normalize_wheel_drive` leaves: no dash, no space at either end, and no
      "RFD" (the site's misspelling of RWD). */
  predicate WheelDriveClean(w: string) {
    && '-' !in w
    && (|w| > 0 ==> w[0] != ' ' && w[|w| - 1] != ' ')
    && !Occurs(w, "RFD")
  }

  /** `_normalize_wheel_drive`: the text before the first dash, stripped of spaces, with
      "RFD" corrected to "RWD"; a missing value stays missing. */
  function NormalizeWheelDrive(raw: Option<string>): (r: Option<string>)
    ensures r.Some? <==> raw.Some?
    ensures r.Some? ==> WheelDriveClean(r.value)
  {
    match raw
    case None => None
    case Some(s) =>
      CleanAfterNormalize(s);
      Some(Replace(Strip(Split(s, '-')[0], {' '}), "RFD", "RWD"))
  }

  /** Replacing "RFD" by "RWD" changes only an F into a W here and there. */
  lemma {:induction false} RfdShape(s: string)
    ensures |Replace(s, "RFD", "RWD")| == |s|
    ensures forall i :: 0 <= i < |s| ==>
      Replace(s, "RFD", "RWD")[i] == s[i] || (s[i] == 'F' && Replace(s, "RFD", "RWD")[i] == 'W')
    decreases |s|
  {
    if |s| > 0 {
      if StartsWith(s, "RFD") {
        RfdShape(s[3..]);
        assert s[..3] == "RFD";
        assert s[0] == 'R' && s[1] == 'F' && s[2] == 'D';
      } else {
        RfdShape(s[1..]);
      }
    }
  }

  /** No "RFD" survives the correction. */
  lemma {:induction false} RfdGone(s: string)
    ensures !Occurs(Replace(s, "RFD", "RWD"), "RFD")
    decreases |s|
  {
    var r := Replace(s, "RFD", "RWD");
    if |s| > 0 {
      if StartsWith(s, "RFD") {
        var rest := Replace(s[3..], "RFD", "RWD");
        RfdGone(s[3..]);
        assert r == "RWD" + rest;
        assert r[1] == 'W' && r[2] == 'D' && |r| == |rest| + 3;
        assert r[3..] == rest;
        assert r[2..][1..] == rest;
        assert r[2..][0] == 'D';
        assert !Occurs(r[2..], "RFD");
        assert r[1..][1..] == r[2..];
        assert r[1..][0] == 'W';
        assert !Occurs(r[1..], "RFD");
        assert !StartsWith(r, "RFD");
      } else {
        var rest := Replace(s[1..], "RFD", "RWD");
        RfdGone(s[1..]);
        assert r == [s[0]] + rest;
        assert r[1..] == rest;
        RfdShape(s[1..]);
      }
    }
  }

  /** The result of `_normalize_wheel_drive` is clean. */
  lemma CleanAfterNormalize(s: string)
    ensures WheelDriveClean(Replace(Strip(Split(s, '-')[0], {' '}), "RFD", "RWD"))
  {
    var head := Split(s, '-')[0];
    StripKeepsAbsent(head, {' '}, '-');
    CorrectedClean(Strip(head, {' '}));
  }

  /** Correcting a dash-free text without edge spaces gives a clean value. */
  lemma CorrectedClean(t: string)
    requires '-' !in t
    requires |t| > 0 ==> t[0] != ' ' && t[|t| - 1] != ' '
    ensures WheelDriveClean(Replace(t, "RFD", "RWD"))
  {
    var r := Replace(t, "RFD", "RWD");
    RfdShape(t);
    RfdGone(t);
    assert '-' !in r by {
      forall j | 0 <= j < |r|
        ensures r[j] != '-'
      {
        assert r[j] == t[j] || r[j] == 'W';
      }
    }
    if |r| > 0 {
      assert r[0] == t[0] || r[0] == 'W';
      assert r[|r| - 1] == t[|t| - 1] || r[|r| - 1] == 'W';
    }
  }

  /** A clean value is its own normal form, so normalising twice is normalising once. */
  lemma WheelDriveFixedPoints(w: string)
    ensures NormalizeWheelDrive(Some(w)) == Some(w) <==> WheelDriveClean(w)
  {
    if WheelDriveClean(w) {
      SplitNoSeparator(w, '-');
      StripClean(w, {' '});
      ReplaceAbsent(w, "RFD", "RWD");
    }
  }

  lemma WheelDriveIdempotent(raw: Option<string>)
    ensures NormalizeWheelDrive(NormalizeWheelDrive(raw)) == NormalizeWheelDrive(raw)
  {
    if raw.Some? {
      WheelDriveFixedPoints(NormalizeWheelDrive(raw).value);
    }
  }

  /** "RFD - rear-wheel drive" becomes "RWD". */
  lemma WheelDriveRfd(rest: string)
    ensures NormalizeWheelDrive(Some("RFD - " + rest)) == Some("RWD")
  {
    RfdHead(rest);
    StripPadded("RFD", " ", {' '});
    ReplaceWhole("RFD", "RWD");
  }

  /** The text before the first dash of "RFD - <rest>". */
  lemma RfdHead(rest: string)
    ensures Split("RFD - " + rest, '-')[0] == "RFD" + " "
  {
    assert "RFD - " + rest == "RFD " + ['-'] + (" " + rest);
    SplitAfterPiece("RFD ", " " + rest, '-');
  }

  // ---------------------------------------------------------------------------
  // Kilometres driven

  /** `w.strip().replace(',', '')` for one word of the km text. */
  function KmWord(w: string): string {
    Replace(Strip(w, Whitespace), ",", "")
  }

  /** `float(w)` for every cleaned word, `None` where it raises. */
  function ParsedWords(words: seq<string>): (r: seq<Option<real>>)
    ensures |r| == |words|
    ensures forall i :: 0 <= i < |words| ==> r[i] == ParseFloat(KmWord(words[i]))
  {
    seq(|words|, i requires 0 <= i < |words| => ParseFloat(KmWord(words[i])))
  }

  /** The loop of `_normalize_km_driven`: the values of the words that parsed, in order
      (`numbers`). */
  function Numbers<T>(parsed: seq<Option<T>>): seq<T>
    decreases |parsed|
  {
    if |parsed| == 0 then []
    else
      match parsed[0]
      case Some(x) => [x] + Numbers(parsed[1..])
      case None => Numbers(parsed[1..])
  }

  /** `numbers[0]` is the value of the first word that parsed; there is one exactly
      when some word parsed. */
  lemma {:induction false} NumbersFirst<T>(parsed: seq<Option<T>>)
    ensures |Numbers(parsed)| > 0 <==> exists i :: 0 <= i < |parsed| && parsed[i].Some?
    ensures |Numbers(parsed)| > 0 ==>
      exists i :: (0 <= i < |parsed| && parsed[i] == Some(Numbers(parsed)[0])
        && forall j :: 0 <= j < i ==> parsed[j].None?)
    decreases |parsed|
  {
    if |parsed| > 0 {
      NumbersFirst(parsed[1..]);
      if parsed[0].Some? {
        assert parsed[0] == Some(Numbers(parsed)[0]);
      } else {
        if exists i :: 0 <= i < |parsed| && parsed[i].Some? {
          var i :| 0 <= i < |parsed| && parsed[i].Some?;
          assert parsed[1..][i - 1].Some?;
        }
        if |Numbers(parsed)| > 0 {
          var i :| 0 <= i < |parsed[1..]| && parsed[1..][i] == Some(Numbers(parsed)[0])
            && forall j :: 0 <= j < i ==> parsed[1..][j].None?;
          assert parsed[i + 1] == Some(Numbers(parsed)[0]);
          forall j | 0 <= j < i + 1
            ensures parsed[j].None?
          {
            if j > 0 {
              assert parsed[j] == parsed[1..][j - 1];
            }
          }
        }
      }
    }
  }

  /** `_normalize_km_driven`: `numbers[0]` of the space-separated words, or `None`. */
  function NormalizeKmDriven(raw: string): (r: Option<real>)
  {
    var numbers := Numbers(ParsedWords(Split(raw, ' ')));
    if |numbers| > 0 then Some(numbers[0]) else None
  }

  /** The km value is the value of the first word that parses once its thousands
      commas are removed (`ParsedWords` pairs each word with that value), and `None`
      when no word does; `words` are the space-separated words of `raw`. */
  lemma KmDrivenIsFirstNumber(raw: string, words: seq<string>)
    requires words == Split(raw, ' ')
    ensures var parsed := ParsedWords(words);
      && (NormalizeKmDriven(raw).Some? <==> exists i :: 0 <= i < |parsed| && parsed[i].Some?)
      && (NormalizeKmDriven(raw).Some? ==>
        exists i :: (0 <= i < |parsed| && parsed[i] == NormalizeKmDriven(raw)
          && forall j :: 0 <= j < i ==> parsed[j].None?))
  {
    NumbersFirst(ParsedWords(words));
  }

  /** "<a>,<b>" with `a` and `b` digit strings has no whitespace. */
  lemma CommaNumberPrintable(a: string, b: string)
    requires AllDigits(a) && AllDigits(b)
    ensures forall i :: 0 <= i < |a + "," + b| ==> '!' <= (a + "," + b)[i] <= '~'
  {
    var m := a + "," + b;
    forall i | 0 <= i < |m|
      ensures '!' <= m[i] <= '~'
    {
      if i < |a| {
        assert m[i] == a[i];
      } else if i > |a| {
        assert m[i] == b[i - |a| - 1];
      }
    }
  }

  /** Replacing the comma of "<a>,<b>" when neither side has one. */
  lemma CommaReplaced(a: string, b: string, repl: string)
    requires ',' !in a && ',' !in b
    ensures Replace(a + "," + b, ",", repl) == a + repl + b
  {
    assert a + "," + b == a + ("," + b);
    ReplaceSkipsPrefix(a, "," + b, ",", repl);
    assert ("," + b)[1..] == b;
    CharAbsent(b, ",", ',');
    ReplaceAbsent(b, ",", repl);
    assert a + (repl + b) == a + repl + b;
  }

  /** A digit string is read as its value. */
  lemma ParseFloatDigits(d: string)
    requires IsDigits(d)
    ensures ParseFloat(d) == Some(DigitsValue(d) as real)
  {
    PrintableNotWhitespace(d);
  }

  /** A printable word without commas is left as it is. */
  lemma KmWordUnchanged(w: string)
    requires forall i :: 0 <= i < |w| ==> '!' <= w[i] <= '~' && w[i] != ','
    ensures KmWord(w) == w
  {
    PrintableNotWhitespace(w);
    CharAbsent(w, ",", ',');
    ReplaceAbsent(w, ",", "");
  }

  lemma CommaNumberStripped(a: string, b: string)
    requires AllDigits(a) && AllDigits(b)
    ensures Strip(a + "," + b, Whitespace) == a + "," + b
  {
    CommaNumberPrintable(a, b);
    PrintableNotWhitespace(a + "," + b);
  }

  lemma CommaRemoved(a: string, b: string)
    requires AllDigits(a) && AllDigits(b)
    ensures Replace(a + "," + b, ",", "") == a + b
  {
    assert ',' !in a && ',' !in b;
    CommaReplaced(a, b, "");
    assert a + "" + b == a + b;
  }

  /** The thousands comma of "<a>,<b>" is removed. */
  lemma KmWordDropsComma(a: string, b: string)
    requires AllDigits(a) && AllDigits(b)
    ensures KmWord(a + "," + b) == a + b
  {
    CommaNumberStripped(a, b);
    CommaRemoved(a, b);
  }

  /** A word of digits is read as its value. */
  lemma KmWordOfDigits(d: string)
    requires IsDigits(d)
    ensures ParseFloat(KmWord(d)) == Some(DigitsValue(d) as real)
  {
    KmWordUnchanged(d);
    ParseFloatDigits(d);
  }

  /** A word with a thousands comma, "<a>,<b>", is read as the digits without it. */
  lemma KmWordOfThousands(a: string, b: string)
    requires AllDigits(a) && AllDigits(b) && |a| + |b| > 0
    ensures ParseFloat(KmWord(a + "," + b)) == Some(DigitsValue(a + b) as real)
  {
    KmWordDropsComma(a, b);
    DigitsValueConcat(a, b);
    ParseFloatDigits(a + b);
  }

  /** When the first word of the km text is read as `x`, the km value is `x`. */
  lemma KmFromFirstWord(w: string, unit: string, x: real)
    requires ' ' !in w && ' ' !in unit
    requires ParseFloat(KmWord(w)) == Some(x)
    ensures NormalizeKmDriven(w + " " + unit) == Some(x)
  {
    SplitPair(w, unit, ' ');
    assert w + " " + unit == w + [' '] + unit;
    var parsed := ParsedWords([w, unit]);
    assert parsed[0] == Some(x);
    assert Numbers(parsed)[0] == x;
  }

  /** "<digits> <unit>" reads as the number. */
  lemma KmOfNumberAndUnit(d: string, unit: string)
    requires IsDigits(d) && ' ' !in unit
    ensures NormalizeKmDriven(d + " " + unit) == Some(DigitsValue(d) as real)
  {
    assert ' ' !in d;
    KmWordOfDigits(d);
    KmFromFirstWord(d, unit, DigitsValue(d) as real);
  }

  /** "<a>,<b> <unit>", the site's format ("12,000 km"), reads as the number without
      its thousands comma (`DigitsValueConcat` gives its value as a * 10^|b| + b). */
  lemma KmWithThousandsComma(a: string, b: string, unit: string)
    requires AllDigits(a) && AllDigits(b) && |a| + |b| > 0 && ' ' !in unit
    ensures AllDigits(a + b)
    ensures NormalizeKmDriven(a + "," + b + " " + unit) == Some(DigitsValue(a + b) as real)
  {
    DecimalHasNoSpace(a, b);
    KmWordOfThousands(a, b);
    KmFromFirstWord(a + "," + b, unit, DigitsValue(a + b) as real);
  }

  // ---------------------------------------------------------------------------
  // Engine information: "<fuel> <capacity> ..."

  datatype EngineInfo = EngineInfo(fuels: string, capacity: Option<real>)

  /** The engine-info step of `process_item`: tabs become spaces; the first word is the
      fuel, normalised; the second word, with a decimal comma turned into a point, is
      the capacity, or `None` when it is absent or does not parse. */
  function SplitEngineInfo(info: string): (r: EngineInfo)
    ensures r.capacity.Some? ==> ' ' in info || '\t' in info
    ensures r.capacity.Some? ==> r.capacity.value >= 0.0
  {
    var spaced := Replace(info, "\t", " ");
    var words := Split(spaced, ' ');
    if |words| > 1 then
      JoinHasSeparator(words, ' ');
      SpacedFrom(info);
      EngineInfo(NormalizeFuels(words[0]), ParseFloat(Replace(words[1], ",", ".")))
    else
      EngineInfo(NormalizeFuels(words[0]), None)
  }

  lemma JoinHasSeparator(parts: seq<string>, sep: char)
    requires |parts| > 1
    ensures sep in Join(parts, sep)
  {
    assert Join(parts, sep)[|parts[0]|] == sep;
  }

  /** After tabs become spaces, a space comes from a space or a tab, and no tab is left. */
  lemma SpacedFrom(info: string)
    ensures ' ' in Replace(info, "\t", " ") ==> ' ' in info || '\t' in info
    ensures '\t' !in Replace(info, "\t", " ")
  {
    ReplaceChar(info, '\t', ' ');
    var r := Replace(info, "\t", " ");
    if ' ' in r {
      var i :| 0 <= i < |r| && r[i] == ' ';
      assert info[i] == ' ' || info[i] == '\t';
    }
  }

  /** Tabs and spaces separate words alike. */
  lemma EngineInfoTabs(info: string)
    ensures SplitEngineInfo(info) == SplitEngineInfo(Replace(info, "\t", " "))
  {
    var r := Replace(info, "\t", " ");
    SpacedFrom(info);
    CharAbsent(r, "\t", '\t');
    ReplaceAbsent(r, "\t", " ");
  }

  /** The words of "<fuel> <m><tail>" after tabs become spaces: the fuel, then `m`. */
  lemma EngineWords(f: string, m: string, tail: string)
    requires ' ' !in f && ' ' !in m
    requires tail == "" || tail[0] == ' '
    requires '\t' !in f + " " + m + tail
    ensures var words := Split(Replace(f + " " + m + tail, "\t", " "), ' ');
      |words| > 1 && words[0] == f && words[1] == m
  {
    var info := f + " " + m + tail;
    CharAbsent(info, "\t", '\t');
    ReplaceAbsent(info, "\t", " ");
    assert info == f + [' '] + (m + tail);
    SplitAfterPiece(f, m + tail, ' ');
    if tail == "" {
      assert m + tail == m;
      SplitNoSeparator(m, ' ');
    } else {
      assert m + tail == m + [' '] + tail[1..];
      SplitAfterPiece(m, tail[1..], ' ');
    }
  }

  /** On "<fuel> <word><rest>" the fuel is the first word, normalised, and the capacity is
      the second word with its decimal comma turned into a point, as `float()` reads it:
      a word `float()` rejects gives no capacity rather than an error. */
  lemma EngineInfoOfWords(f: string, w: string, tail: string)
    requires ' ' !in f && ' ' !in w
    requires tail == "" || tail[0] == ' '
    requires '\t' !in f + " " + w + tail
    ensures SplitEngineInfo(f + " " + w + tail) == EngineInfo(NormalizeFuels(f), ParseFloat(Replace(w, ",", ".")))
  {
    EngineWords(f, w, tail);
  }

  /** A single word is all fuel: the engine information has no capacity. */
  lemma EngineInfoOneWord(w: string)
    requires ' ' !in w && '\t' !in w
    ensures SplitEngineInfo(w) == EngineInfo(NormalizeFuels(w), None)
  {
    CharAbsent(w, "\t", '\t');
    ReplaceAbsent(w, "\t", " ");
    SplitNoSeparator(w, ' ');
  }

  lemma DecimalHasNoSpace(a: string, b: string)
    requires AllDigits(a) && AllDigits(b)
    ensures ' ' !in a + "," + b
  {
    var m := a + "," + b;
    forall i | 0 <= i < |m|
      ensures m[i] != ' '
    {
      if i < |a| {
        assert m[i] == a[i];
      } else if i > |a| {
        assert m[i] == b[i - |a| - 1];
      }
    }
  }

  /** "<fuel> <digits>,<digits>" reads as the normalised fuel and the decimal number,
      whatever follows after a further space. */
  lemma EngineInfoReading(f: string, a: string, b: string, tail: string)
    requires ' ' !in f && AllDigits(a) && AllDigits(b) && |a| + |b| > 0
    requires tail == "" || tail[0] == ' '
    requires '\t' !in f + " " + (a + "," + b) + tail
    ensures SplitEngineInfo(f + " " + (a + "," + b) + tail) == EngineInfo(NormalizeFuels(f), Some(DigitsValue(a) as real + Fraction(b)))
  {
    DecimalHasNoSpace(a, b);
    EngineWords(f, a + "," + b, tail);
    assert ',' !in a && ',' !in b;
    CommaReplaced(a, b, ".");
    ParseFloatDecimal(a, b);
  }

  // ---------------------------------------------------------------------------
  // Seats, year, price

  /** The number-of-seats step of `process_item`: drop the unit, strip, `int()`;
      `None` when the text is missing or not a number. */
  function NormalizeNumSeats(raw: Option<string>): (r: Option<nat>)
    ensures raw.None? ==> r.None?
  {
    match raw
    case None => None
    case Some(s) => ParseInt(Strip(Replace(s, SeatsUnit, ""), Whitespace))
  }

  /** "<n> seats" reads as n. */
  lemma NumSeatsOfNumberAndUnit(n: nat)
    ensures NormalizeNumSeats(Some(NatToString(n) + " " + SeatsUnit)) == Some(n)
  {
    var d := NatToString(n);
    SeatsUnitRemoved(d);
    DigitsSpaceStripped(d);
    ParseIntOfString(n);
  }

  /** Removing the unit from "<digits> <unit>" leaves "<digits> ". */
  lemma SeatsUnitRemoved(d: string)
    requires AllDigits(d)
    ensures Replace(d + " " + SeatsUnit, SeatsUnit, "") == d + " "
  {
    assert 'c' !in d + " ";
    assert d + " " + SeatsUnit == (d + " ") + SeatsUnit;
    ReplaceSkipsPrefix(d + " ", SeatsUnit, SeatsUnit, "");
    ReplaceWhole(SeatsUnit, "");
    assert (d + " ") + "" == d + " ";
  }

  /** Stripping "<digits> " leaves the digits. */
  lemma DigitsSpaceStripped(d: string)
    requires AllDigits(d) && |d| > 0
    ensures Strip(d + " ", Whitespace) == d
  {
    PrintableNotWhitespace(d);
    StripPadded(d, " ", Whitespace);
  }

  /** `int(item.year)`; the source raises on a year that is not a number. */
  function ParseYear(raw: Option<string>): (r: Option<nat>)
    requires raw.Some? ==> ParseInt(raw.value).Some?
    ensures r.Some? <==> raw.Some?
  {
    match raw
    case None => None
    case Some(s) => ParseInt(s)
  }

  /** A year written out in digits reads back as itself. */
  lemma YearRoundTrip(y: nat)
    ensures ParseInt(NatToString(y)) == Some(y) && ParseYear(Some(NatToString(y))) == Some(y)
  {
    ParseIntOfString(y);
  }

  /** `float(price) / 1e6`: the price in millions of dong; the source raises on a price
      that is not a number. */
  function ScalePrice(raw: Option<string>): (r: Option<real>)
    requires raw.Some? ==> ParseFloat(raw.value).Some?
    ensures r.Some? <==> raw.Some?
    ensures r.Some? ==> r.value >= 0.0 && r.value * 1000000.0 == ParseFloat(raw.value).value
  {
    match raw
    case None => None
    case Some(s) => Some(ParseFloat(s).value / 1000000.0)
  }

  // ---------------------------------------------------------------------------
  // process_item

  /** The fields `process_item` uses without a `None` check, and the two conversions
      that raise on bad text: the source fails on any item that breaks one of these. */
  predicate Processable(item: RawItem) {
    && item.carType.Some? && item.engineInfo.Some? && item.rawKmDriven.Some?
    && item.gearbox.Some? && item.rawOrigin.Some?
    && (item.year.Some? ==> ParseInt(item.year.value).Some?)
    && (item.price.Some? ==> ParseFloat(item.price.value).Some?)
  }

  /** The field conversions of `process_item`, before the storage decision. */
  function Normalize(item: RawItem): (r: Item)
    requires Processable(item)
    ensures r.title == item.title && r.url == item.url && r.location == item.location
    ensures r.branch == item.branch && r.model == item.model
    ensures r.externalColor == item.externalColor && r.internalColor == item.internalColor
    ensures r.year.Some? <==> item.year.Some?
    ensures r.price.Some? <==> item.price.Some?
    ensures r.wheelDrive.Some? <==> item.wheelDrive.Some?
    ensures r.wheelDrive.Some? ==> WheelDriveClean(r.wheelDrive.value)
    ensures r.carType.Some? && r.fuels.Some? && r.gearbox.Some? && r.origin.Some?
    ensures item.numSeats.None? ==> r.numSeats.None?
    ensures r.year == ParseYear(item.year) && r.price == ScalePrice(item.price)
    ensures r.origin == Some(NormalizeOrigin(item.rawOrigin.value))
    ensures r.kmDriven == NormalizeKmDriven(item.rawKmDriven.value)
    ensures r.numSeats == NormalizeNumSeats(item.numSeats)
    ensures r.fuels == Some(SplitEngineInfo(item.engineInfo.value).fuels)
    ensures r.engineCapacity == SplitEngineInfo(item.engineInfo.value).capacity
    ensures r.gearbox == Some(NormalizeGearbox(item.gearbox.value))
    ensures r.wheelDrive == NormalizeWheelDrive(item.wheelDrive)
    ensures r.carType == Some(NormalizeCarType(item.carType.value))
  {
    var engine := SplitEngineInfo(item.engineInfo.value);
    Item(
      item.title, item.url,
      ParseYear(item.year),
      ScalePrice(item.price),
      item.location, item.branch, item.model,
      Some(NormalizeOrigin(item.rawOrigin.value)),
      NormalizeKmDriven(item.rawKmDriven.value),
      item.externalColor, item.internalColor,
      NormalizeNumSeats(item.numSeats),
      Some(engine.fuels),
      engine.capacity,
      Some(NormalizeGearbox(item.gearbox.value)),
      NormalizeWheelDrive(item.wheelDrive),
      Some(NormalizeCarType(item.carType.value)))
  }

  /** The storage decision, from the crawl mode and the post's age in days. */
  datatype Route = Store | CountOutOfDate | Skip

  function RoutePost(mode: string, days: int): Route {
    if mode == "all" then Store
    else if days == 1 then Store
    else if days > 1 then CountOutOfDate
    else Skip
  }

  /** What `process_item` hands back: the item, whether it was stored, and the spider's
      `num_ood_posts` afterwards. */
  datatype Processed = Processed(item: Item, stored: bool, oodPosts: nat)

  /** `process_item`: mode "all" stores every listing; otherwise a listing is stored
      when it was posted yesterday, counted as out of date when older, and ignored
      when newer. The counter moves only for an out-of-date listing, by one. */
  function ProcessItem(item: RawItem, mode: string, days: int, oodPosts: nat): (r: Processed)
    requires Processable(item)
    ensures r.stored <==> mode == "all" || days == 1
    ensures r.oodPosts == if mode != "all" && days > 1 then oodPosts + 1 else oodPosts
    ensures r.oodPosts >= oodPosts
  {
    var converted := Normalize(item);
    match RoutePost(mode, days)
    case Store => Processed(converted, true, oodPosts)
    case CountOutOfDate => Processed(converted, false, oodPosts + 1)
    case Skip => Processed(converted, false, oodPosts)
  }

  /** Every branch returns the same converted item: the route decides storage only. */
  lemma ProcessItemReturnsItem(item: RawItem, mode: string, days: int, ood: nat)
    requires Processable(item)
    ensures ProcessItem(item, mode, days, ood).item == Normalize(item)
  {
    match RoutePost(mode, days)
    case Store =>
    case CountOutOfDate =>
    case Skip =>
  }

  /** A year scraped as "<y>" comes out of `process_item` as the number y. */
  lemma ProcessedYear(item: RawItem, mode: string, days: int, ood: nat, y: nat)
    requires Processable(item) && item.year == Some(NatToString(y))
    ensures ProcessItem(item, mode, days, ood).item.year == Some(y)
  {
    ProcessItemReturnsItem(item, mode, days, ood);
    YearRoundTrip(y);
  }

  /** A mileage scraped as "<digits> <unit>" comes out as the number the digits write. */
  lemma ProcessedKm(item: RawItem, mode: string, days: int, ood: nat, d: string, unit: string)
    requires Processable(item) && IsDigits(d) && ' ' !in unit
    requires item.rawKmDriven == Some(d + " " + unit)
    ensures ProcessItem(item, mode, days, ood).item.kmDriven == Some(DigitsValue(d) as real)
  {
    ProcessItemReturnsItem(item, mode, days, ood);
    KmOfNumberAndUnit(d, unit);
  }

  /** A seat count scraped as "<n> chỗ" comes out as n. */
  lemma ProcessedSeats(item: RawItem, mode: string, days: int, ood: nat, n: nat)
    requires Processable(item) && item.numSeats == Some(NatToString(n) + " " + SeatsUnit)
    ensures ProcessItem(item, mode, days, ood).item.numSeats == Some(n)
  {
    ProcessItemReturnsItem(item, mode, days, ood);
    NumSeatsOfNumberAndUnit(n);
  }

  /** Engine information scraped as "<fuel> <word><rest>" comes out as the normalised
      fuel and `float()` of the word with its decimal comma turned into a point. */
  lemma ProcessedEngine(item: RawItem, mode: string, days: int, ood: nat, f: string, w: string, tail: string)
    requires Processable(item)
    requires ' ' !in f && ' ' !in w
    requires tail == "" || tail[0] == ' '
    requires '\t' !in f + " " + w + tail
    requires item.engineInfo == Some(f + " " + w + tail)
    ensures ProcessItem(item, mode, days, ood).item.fuels == Some(NormalizeFuels(f))
    ensures ProcessItem(item, mode, days, ood).item.engineCapacity == ParseFloat(Replace(w, ",", "."))
  {
    ProcessItemReturnsItem(item, mode, days, ood);
    EngineInfoOfWords(f, w, tail);
  }

  /** Crawling a run of posts with the given ages: how many were stored and the final
      out-of-date counter. */
  function Crawl(mode: string, days: seq<int>, ood: nat): (r: (nat, nat))
    decreases |days|
  {
    if |days| == 0 then (0, ood)
    else
      var route := RoutePost(mode, days[0]);
      var next := Crawl(mode, days[1..], if route == CountOutOfDate then ood + 1 else ood);
      (if route == Store then next.0 + 1 else next.0, next.1)
  }

  /** Over a run of posts, mode "all" stores every post and never counts; any other
      mode stores exactly the posts one day old and counts exactly the older ones. */
  lemma {:induction false} CrawlCounts(mode: string, days: seq<int>, ood: nat)
    ensures mode == "all" ==> Crawl(mode, days, ood) == (|days|, ood)
    ensures mode != "all" ==>
      Crawl(mode, days, ood) == (|Filter(days, d => d == 1)|, ood + |Filter(days, d => d > 1)|)
    decreases |days|
  {
    if |days| > 0 {
      var route := RoutePost(mode, days[0]);
      CrawlCounts(mode, days[1..], if route == CountOutOfDate then ood + 1 else ood);
    }
  }
}

=== FILE: preparation.dfy ===
/** `components/data_preparation/__init__.py`: the row-cleaning filters, the imputation
    of missing values from the training split, the three encoders fitted on the
    training split only and applied to every split, and the projection of each split
    to `FEATURES`. The filters and the `Transform` class are repeated word for word in
    `components/data_preprocess/__init__.py`; this module models both copies.

    The encoders come from a library that is not part of this model: each is a pair of
    functions, `fit` (from training columns to a fitted state) and `encode` (from that
    state and one row's value to its code). The training-split statistics used for
    imputation (`mode()[0]`, `float(int(mean()))`) and the z-score target filter are
    likewise parameters. */
module Preparation {
  import opened Wrappers
  import opened Frames
  import opened Config
  import opened Records

  // ---------------------------------------------------------------------------
  // Numeric filter

  function NumericValue(r: Row, f: BoundedField): Option<real> {
    match f
    case Year => r.year
    case KmDriven => r.kmDriven
    case NumSeats => r.numSeats
    case EngineCapacity => r.engineCapacity
  }

  /** `(df[feature] < upper_limit) & (df[feature] > lower_limit)` for one row. Every
      comparison with NaN is false, so a missing value never passes. */
  predicate InOpenRange(v: Option<real>, lower: real, upper: Limit) {
    v.Some? && lower < v.value && Below(v.value, upper)
  }

  function RangeMask(feature: BoundedField, lower: real, upper: Limit): Row -> bool {
    row => InOpenRange(NumericValue(row, feature), lower, upper)
  }

  /** `detect_outline(df, feature, lower_limit=0, upper_limit=inf)`: keeps exactly the
      rows whose value lies strictly between the two limits, in their original order. */
  function DetectOutline(rows: Split, feature: BoundedField, lower: real := 0.0, upper: Limit := Infinity): (r: Split)
    ensures IsSubsequence(r, rows)
    ensures forall row :: row in r <==> row in rows && InOpenRange(NumericValue(row, feature), lower, upper)
    ensures forall row :: multiset(r)[row] ==
              if InOpenRange(NumericValue(row, feature), lower, upper) then multiset(rows)[row] else 0
  {
    FilterIsSubsequence(rows, RangeMask(feature, lower, upper));
    FilterCounts(rows, RangeMask(feature, lower, upper));
    Filter(rows, RangeMask(feature, lower, upper))
  }

  /** Both limits are exclusive: a value equal to either limit, or a missing value, is dropped. */
  lemma DetectOutlineExclusive(row: Row, feature: BoundedField, lower: real, upper: real)
    requires NumericValue(row, feature) in {None, Some(lower), Some(upper)}
    ensures DetectOutline([row], feature, lower, Finite(upper)) == []
  {
    assert [row][1..] == [];
  }

  /** The conditions `filter_numeric_feature` imposes, written out with the configured numbers. */
  predicate NumericOk(r: Row) {
    && r.year.Some? && r.year.value > 2007.0
    && r.kmDriven.Some? && 0.0 < r.kmDriven.value < 1000000000.0
    && r.numSeats.Some? && 0.0 < r.numSeats.value < 30.0
    && r.engineCapacity.Some? && 0.0 < r.engineCapacity.value < 10.0
  }

  /** `filter_numeric_feature`: four successive `detect_outline` calls, passing only the
      configured lower limit of `year` and only the configured upper limits of the other
      three (the other side takes the default). The result is one selection by the
      conjunction of the four range conditions. */
  function FilterNumericFeature(rows: Split): (r: Split)
    ensures r == Filter(rows, NumericOk)
    ensures IsSubsequence(r, rows)
    ensures forall row :: row in r <==> row in rows && NumericOk(row)
  {
    NumericSelections(rows);
    FilterIsSubsequence(rows, NumericOk);
    var byYear := DetectOutline(rows, Year, lower := NumericBounds(Year).lower);
    var byKm := DetectOutline(byYear, KmDriven, upper := NumericBounds(KmDriven).upper);
    var bySeats := DetectOutline(byKm, NumSeats, upper := NumericBounds(NumSeats).upper);
    DetectOutline(bySeats, EngineCapacity, upper := NumericBounds(EngineCapacity).upper)
  }

  /** The four `detect_outline` calls select by the conjunction of their conditions. */
  lemma NumericSelections(rows: Split)
    ensures DetectOutline(DetectOutline(DetectOutline(DetectOutline(rows, Year, lower := NumericBounds(Year).lower),
      KmDriven, upper := NumericBounds(KmDriven).upper), NumSeats, upper := NumericBounds(NumSeats).upper),
      EngineCapacity, upper := NumericBounds(EngineCapacity).upper) == Filter(rows, NumericOk)
  {
    var m1 := RangeMask(Year, NumericBounds(Year).lower, Infinity);
    var m2 := RangeMask(KmDriven, 0.0, NumericBounds(KmDriven).upper);
    var m3 := RangeMask(NumSeats, 0.0, NumericBounds(NumSeats).upper);
    var m4 := RangeMask(EngineCapacity, 0.0, NumericBounds(EngineCapacity).upper);
    FilterComposeFour(rows, m1, m2, m3, m4, NumericOk);
  }

  /** Although each call passes only one side, the selection honours the full configured
      range of every bounded field: the defaults it leaves in place (lower 0, upper
      infinity) are the configured values. */
  lemma FilterNumericHonoursConfig(rows: Split)
    ensures forall row :: row in FilterNumericFeature(rows) <==>
      row in rows && forall f: BoundedField :: InOpenRange(NumericValue(row, f), NumericBounds(f).lower, NumericBounds(f).upper)
  {
    forall row: Row
      ensures NumericOk(row) <==> forall f: BoundedField :: InOpenRange(NumericValue(row, f), NumericBounds(f).lower, NumericBounds(f).upper)
    {
      if forall f: BoundedField :: InOpenRange(NumericValue(row, f), NumericBounds(f).lower, NumericBounds(f).upper) {
        assert InOpenRange(NumericValue(row, Year), NumericBounds(Year).lower, NumericBounds(Year).upper);
        assert InOpenRange(NumericValue(row, KmDriven), NumericBounds(KmDriven).lower, NumericBounds(KmDriven).upper);
        assert InOpenRange(NumericValue(row, NumSeats), NumericBounds(NumSeats).lower, NumericBounds(NumSeats).upper);
        assert InOpenRange(NumericValue(row, EngineCapacity), NumericBounds(EngineCapacity).lower, NumericBounds(EngineCapacity).upper);
      }
    }
  }

  /** A listing from 2007 is dropped: the year bound is strict. */
  lemma Year2007Dropped(row: Row)
    requires row.year == Some(2007.0)
    ensures FilterNumericFeature([row]) == []
  {
    assert [row][1..] == [];
  }

  // ---------------------------------------------------------------------------
  // Categorical filter

  function ListedValue(r: Row, f: ListedField): Option<string> {
    match f
    case Origin => r.origin
    case WheelDrive => r.wheelDrive
    case CarType => r.carType
    case Gearbox => r.gearbox
  }

  /** `lambda x: x in CONFIG_DATA['category'][f]`; NaN is in no list. */
  predicate Allowed(v: Option<string>, f: ListedField) {
    v.Some? && v.value in AllowedValues(f)
  }

  function AllowMask(f: ListedField): Row -> bool {
    row => Allowed(ListedValue(row, f), f)
  }

  /** The conditions `filter_category_feature` imposes: each of the four listed fields
      holds a value of its allow-list. */
  predicate CategoryOk(r: Row) {
    && Allowed(r.origin, Origin)
    && Allowed(r.wheelDrive, WheelDrive)
    && Allowed(r.carType, CarType)
    && Allowed(r.gearbox, Gearbox)
  }

  /** The same conditions with the configured allow-lists written out. */
  lemma CategoryOkWrittenOut(r: Row)
    ensures CategoryOk(r) <==>
      && r.origin.Some? && r.origin.value in ["domestic", "imported"]
      && r.wheelDrive.Some? && r.wheelDrive.value in ["FWD", "RWD", "4WD", "AWD"]
      && r.carType.Some? && r.carType.value in
           ["sedan", "crossover", "hatchback", "pickup", "suv", "van", "coupe", "truck", "convertible", "wagon"]
      && r.gearbox.Some? && r.gearbox.value in ["automatic", "manual"]
  {
  }

  /** `filter_category_feature`: four successive selections, origin, wheel_drive,
      car_type, gearbox. A value outside its list drops the row; nothing is raised. */
  function FilterCategoryFeature(rows: Split): (r: Split)
    ensures r == Filter(rows, CategoryOk)
    ensures IsSubsequence(r, rows)
    ensures forall row :: row in r <==> row in rows && CategoryOk(row)
  {
    var m1 := AllowMask(Origin);
    var m2 := AllowMask(WheelDrive);
    var m3 := AllowMask(CarType);
    var m4 := AllowMask(Gearbox);
    FilterComposeFour(rows, m1, m2, m3, m4, CategoryOk);
    FilterIsSubsequence(rows, CategoryOk);
    Filter(Filter(Filter(Filter(rows, m1), m2), m3), m4)
  }

  /** The colours, branch, model, fuels and location do not take part in the selection. */
  lemma CategoryIgnoresUnlistedColumns(row: Row, other: Row)
    requires row.origin == other.origin && row.wheelDrive == other.wheelDrive
    requires row.carType == other.carType && row.gearbox == other.gearbox
    ensures CategoryOk(row) == CategoryOk(other)
  {
  }

  // ---------------------------------------------------------------------------
  // Both filters

  predicate CleanOk(r: Row) {
    NumericOk(r) && CategoryOk(r)
  }

  /** Applying a filter to its own output changes nothing. */
  lemma FiltersIdempotent(rows: Split)
    ensures FilterNumericFeature(FilterNumericFeature(rows)) == FilterNumericFeature(rows)
    ensures FilterCategoryFeature(FilterCategoryFeature(rows)) == FilterCategoryFeature(rows)
  {
    FilterIdempotent(rows, NumericOk);
    FilterIdempotent(rows, CategoryOk);
  }

  /** The two filters compose to one selection by the conjunction of all eight
      conditions, so their order does not matter. */
  lemma FiltersCommute(rows: Split)
    ensures FilterCategoryFeature(FilterNumericFeature(rows)) == Filter(rows, CleanOk)
    ensures FilterNumericFeature(FilterCategoryFeature(rows)) == Filter(rows, CleanOk)
  {
    FilterCompose(rows, NumericOk, CategoryOk, CleanOk);
    FilterCompose(rows, CategoryOk, NumericOk, CleanOk);
  }

  /** A row that fails either filter has no effect on what comes out, wherever it sits. */
  lemma RejectedRowIsInvisible(a: Split, bad: Row, b: Split)
    requires !CleanOk(bad)
    ensures FilterCategoryFeature(FilterNumericFeature(a + [bad] + b)) == FilterCategoryFeature(FilterNumericFeature(a + b))
  {
    FiltersCommute(a + [bad] + b);
    FiltersCommute(a + b);
    FilterSkipsRejected(a, bad, b, CleanOk);
  }

  // ---------------------------------------------------------------------------
  // Imputation

  /** The training-split statistics: `df_train.wheel_drive.mode()[0]` and
      `float(int(df_train.engine_capacity.mean()))`. */
  datatype FillValues = FillValues(wheelDrive: string, engineCapacity: real)

  /** `fillna` of `wheel_drive` and `engine_capacity` on one split: a missing cell takes
      the fill value, a present cell keeps its value, and no other column changes. */
  function FillMissing(rows: Split, fill: FillValues): (r: Split)
    ensures |r| == |rows|
    ensures forall i :: 0 <= i < |rows| ==>
      && r[i].wheelDrive == Some(rows[i].wheelDrive.GetOr(fill.wheelDrive))
      && r[i].engineCapacity == Some(rows[i].engineCapacity.GetOr(fill.engineCapacity))
      && r[i] == rows[i].(wheelDrive := r[i].wheelDrive, engineCapacity := r[i].engineCapacity)
  {
    seq(|rows|, i requires 0 <= i < |rows| =>
      var row := rows[i];
      row.(wheelDrive := if row.wheelDrive.Some? then row.wheelDrive else Some(fill.wheelDrive),
           engineCapacity := if row.engineCapacity.Some? then row.engineCapacity else Some(fill.engineCapacity)))
  }

  /** After imputation nothing is missing in those two columns, so a second imputation,
      with any values, changes nothing. */
  lemma FillMissingSettles(rows: Split, fill: FillValues, other: FillValues)
    ensures FillMissing(FillMissing(rows, fill), other) == FillMissing(rows, fill)
  {
    var once := FillMissing(rows, fill);
    var twice := FillMissing(once, other);
    assert |twice| == |once|;
    forall i | 0 <= i < |once|
      ensures twice[i] == once[i]
    {
    }
  }

  // ---------------------------------------------------------------------------
  // Encoders and the Transform class

  /** The six columns of `category_other`, in that order. */
  datatype Others<X> = Others(externalColor: X, internalColor: X, origin: X, gearbox: X, wheelDrive: X, carType: X)

  function OthersOf(r: Row): Others<Option<string>> {
    Others(r.externalColor, r.internalColor, r.origin, r.gearbox, r.wheelDrive, r.carType)
  }

  /** `ce.JamesSteinEncoder`: fitted on one categorical column and the price column. */
  datatype TargetEncoder<!S> = TargetEncoder(
    fit: (seq<Option<string>>, seq<Option<real>>) -> S,
    encode: (S, Option<string>) -> real)

  /** `ce.OrdinalEncoder` over the `category_other` columns. */
  datatype OrdinalEncoder<!O> = OrdinalEncoder(
    fit: seq<Others<Option<string>>> -> O,
    encode: (O, Others<Option<string>>) -> Others<int>)

  /** The two encoder classes; `branch` and `model` each get their own James-Stein fit. */
  datatype Encoders<!S, !O> = Encoders(jamesStein: TargetEncoder<S>, ordinal: OrdinalEncoder<O>)

  /** The fitted state of `encoder_branch`, `encoder_model` and `encoder_others`. */
  datatype Fitted<S, O> = Fitted(branch: S, model: S, others: O)

  /** `Transform(df_train, df_test, df_val)`: the three splits, in the constructor's order. */
  datatype Transform<T> = Transform(train: T, test: T, val: T)

  function BranchColumn(rows: Split): seq<Option<string>> {
    seq(|rows|, i requires 0 <= i < |rows| => rows[i].branch)
  }

  function ModelColumn(rows: Split): seq<Option<string>> {
    seq(|rows|, i requires 0 <= i < |rows| => rows[i].model)
  }

  function PriceColumn(rows: Split): seq<Option<real>> {
    seq(|rows|, i requires 0 <= i < |rows| => rows[i].price)
  }

  function OthersColumns(rows: Split): seq<Others<Option<string>>> {
    seq(|rows|, i requires 0 <= i < |rows| => OthersOf(rows[i]))
  }

  /** `Transform.fit`: all three encoders are fitted on `df_train` alone. */
  function Fit<S, O>(enc: Encoders<S, O>, t: Transform<Split>): (f: Fitted<S, O>)
    ensures f.branch == enc.jamesStein.fit(BranchColumn(t.train), PriceColumn(t.train))
    ensures f.model == enc.jamesStein.fit(ModelColumn(t.train), PriceColumn(t.train))
    ensures f.others == enc.ordinal.fit(OthersColumns(t.train))
  {
    Fitted(
      enc.jamesStein.fit(BranchColumn(t.train), PriceColumn(t.train)),
      enc.jamesStein.fit(ModelColumn(t.train), PriceColumn(t.train)),
      enc.ordinal.fit(OthersColumns(t.train)))
  }

  /** Leakage safety: the validation and test splits cannot influence the fitted encoders. */
  lemma FitReadsOnlyTrain<S, O>(enc: Encoders<S, O>, t: Transform<Split>, test: Split, val: Split)
    ensures Fit(enc, t) == Fit(enc, Transform(t.train, test, val))
  {
  }

  /** One row after `transform`: `branch` and `model` hold their target codes, the
      `category_other` columns their ordinal codes, every other column is untouched. */
  datatype Encoded = Encoded(
    year: Option<real>,
    price: Option<real>,
    location: Option<string>,
    branch: real,
    model: real,
    kmDriven: Option<real>,
    numSeats: Option<real>,
    fuels: Option<string>,
    engineCapacity: Option<real>,
    others: Others<int>)

  function EncodeRow<S, O>(enc: Encoders<S, O>, f: Fitted<S, O>, r: Row): (e: Encoded)
    ensures e.year == r.year && e.price == r.price && e.kmDriven == r.kmDriven
    ensures e.numSeats == r.numSeats && e.engineCapacity == r.engineCapacity
    ensures e.location == r.location && e.fuels == r.fuels
  {
    Encoded(
      r.year, r.price, r.location,
      enc.jamesStein.encode(f.branch, r.branch),
      enc.jamesStein.encode(f.model, r.model),
      r.kmDriven, r.numSeats, r.fuels, r.engineCapacity,
      enc.ordinal.encode(f.others, OthersOf(r)))
  }

  /** The three column assignments of `transform` on one split. */
  function EncodeSplit<S, O>(enc: Encoders<S, O>, f: Fitted<S, O>, rows: Split): (r: seq<Encoded>)
    ensures |r| == |rows|
  {
    seq(|rows|, i requires 0 <= i < |rows| => EncodeRow(enc, f, rows[i]))
  }

  /** Encoding is row by row: a split encodes to the same rows whether alone or
      concatenated with another, so no split's content influences another's codes. */
  lemma EncodeSplitConcat<S, O>(enc: Encoders<S, O>, f: Fitted<S, O>, a: Split, b: Split)
    ensures EncodeSplit(enc, f, a + b) == EncodeSplit(enc, f, a) + EncodeSplit(enc, f, b)
  {
  }

  /** `Transform.transform`: the same fitted state applied to train, test and val. */
  function TransformSplits<S, O>(enc: Encoders<S, O>, f: Fitted<S, O>, t: Transform<Split>): (r: Transform<seq<Encoded>>)
    ensures |r.train| == |t.train| && |r.test| == |t.test| && |r.val| == |t.val|
  {
    Transform(EncodeSplit(enc, f, t.train), EncodeSplit(enc, f, t.test), EncodeSplit(enc, f, t.val))
  }

  /** Each transformed split is a function of the fitted state and that split alone. */
  lemma TransformSplitsSeparately<S, O>(enc: Encoders<S, O>, f: Fitted<S, O>, t: Transform<Split>, u: Transform<Split>)
    ensures t.train == u.train ==> TransformSplits(enc, f, t).train == TransformSplits(enc, f, u).train
    ensures t.test == u.test ==> TransformSplits(enc, f, t).test == TransformSplits(enc, f, u).test
    ensures t.val == u.val ==> TransformSplits(enc, f, t).val == TransformSplits(enc, f, u).val
  {
  }

  // ---------------------------------------------------------------------------
  // Projection to FEATURES

  /** `encoded[name]` after `transform`, or `None` when there is no such column. */
  function EncodedCell(e: Encoded, name: string): Option<Cell> {
    match name
    case "year" => Some(NumCell(e.year))
    case "price" => Some(NumCell(e.price))
    case "location" => Some(TextCell(e.location))
    case "branch" => Some(Num(e.branch))
    case "model" => Some(Num(e.model))
    case "origin" => Some(Code(e.others.origin))
    case "km_driven" => Some(NumCell(e.kmDriven))
    case "external_color" => Some(Code(e.others.externalColor))
    case "internal_color" => Some(Code(e.others.internalColor))
    case "num_seats" => Some(NumCell(e.numSeats))
    case "fuels" => Some(TextCell(e.fuels))
    case "engine_capacity" => Some(NumCell(e.engineCapacity))
    case "gearbox" => Some(Code(e.others.gearbox))
    case "wheel_drive" => Some(Code(e.others.wheelDrive))
    case "car_type" => Some(Code(e.others.carType))
    case _ => None
  }

  /** `df[FEATURES]` for one row: exactly the `FEATURES` columns, in `FEATURES` order. */
  function ToFeatures(e: Encoded): (cells: seq<Cell>)
    ensures |cells| == |Features|
    ensures forall i :: 0 <= i < |Features| ==> EncodedCell(e, Features[i]) == Some(cells[i])
  {
    [NumCell(e.year), NumCell(e.price), NumCell(e.kmDriven), NumCell(e.numSeats), NumCell(e.engineCapacity),
     Num(e.branch), Num(e.model), Code(e.others.origin), Code(e.others.externalColor),
     Code(e.others.internalColor), Code(e.others.gearbox), Code(e.others.wheelDrive), Code(e.others.carType)]
  }

  function ToTable(rows: seq<Encoded>): (t: seq<seq<Cell>>)
    ensures |t| == |rows|
  {
    seq(|rows|, i requires 0 <= i < |rows| => ToFeatures(rows[i]))
  }

  // ---------------------------------------------------------------------------
  // prepare_data

  /** The collaborators `prepare_data` relies on: the encoder classes, the imputation
      statistics of a training split, and the z-score mask of `filter_outline_target`.
      The mask is computed from the whole split (the mean and deviation of its prices)
      and then applied row by row. */
  datatype Plan<!S, !O> = Plan(encoders: Encoders<S, O>, fillFrom: Split -> FillValues, targetMask: Split -> (Row -> bool))

  /** `filter_outline_target`: `df[mask]` with the mask the split's own prices give. */
  function TargetFilter<S, O>(plan: Plan<S, O>, rows: Split): (r: Split)
    ensures IsSubsequence(r, rows)
    ensures forall row :: multiset(r)[row] ==
              if plan.targetMask(rows)(row) then multiset(rows)[row] else 0
  {
    FilterIsSubsequence(rows, plan.targetMask(rows));
    FilterCounts(rows, plan.targetMask(rows));
    Filter(rows, plan.targetMask(rows))
  }

  /** One split after imputation and all three filters, in `prepare_data`'s order: the
      result keeps the imputed rows' order, and of the rows the target filter keeps,
      every copy of a row that passes both filters stays and every other row goes. */
  function CleanSplit<S, O>(plan: Plan<S, O>, fill: FillValues, rows: Split): (r: Split)
    ensures IsSubsequence(r, FillMissing(rows, fill))
    ensures IsSubsequence(r, TargetFilter(plan, FillMissing(rows, fill)))
    ensures forall row :: row in r ==> CleanOk(row)
    ensures forall row :: multiset(r)[row] ==
              if CleanOk(row) then multiset(TargetFilter(plan, FillMissing(rows, fill)))[row] else 0
  {
    var imputed := FillMissing(rows, fill);
    var filtered := TargetFilter(plan, imputed);
    var r := FilterCategoryFeature(FilterNumericFeature(filtered));
    SubsequenceTransitive(r, FilterNumericFeature(filtered), filtered);
    SubsequenceTransitive(r, filtered, imputed);
    BothFiltersCount(filtered);
    r
  }

  /** The two filters together keep every copy of a row that passes both and no copy
      of any other row. */
  lemma BothFiltersCount(rows: Split)
    ensures forall row :: multiset(FilterCategoryFeature(FilterNumericFeature(rows)))[row] ==
              if CleanOk(row) then multiset(rows)[row] else 0
  {
    FiltersCommute(rows);
    FilterCounts(rows, CleanOk);
  }

  /** What `prepare_data` logs: the fitted encoders and the three projected tables. */
  datatype Prepared<S, O> = Prepared(fitted: Fitted<S, O>, train: seq<seq<Cell>>, val: seq<seq<Cell>>, test: seq<seq<Cell>>)

  /** A row of an emitted table: 13 cells in `FEATURES` order whose numeric cells meet
      the cleaning bounds and whose categorical cells hold codes. */
  predicate EmittedRowOk(cells: seq<Cell>) {
    && |cells| == 13
    && cells[0].Num? && cells[0].num > 2007.0
    && cells[2].Num? && 0.0 < cells[2].num < 1000000000.0
    && cells[3].Num? && 0.0 < cells[3].num < 30.0
    && cells[4].Num? && 0.0 < cells[4].num < 10.0
    && cells[5].Num? && cells[6].Num?
    && forall k :: 7 <= k < 13 ==> cells[k].Code?
  }

  lemma CleanRowEmitsOk<S, O>(enc: Encoders<S, O>, f: Fitted<S, O>, row: Row)
    requires CleanOk(row)
    ensures EmittedRowOk(ToFeatures(EncodeRow(enc, f, row)))
  {
    assert NumericOk(row);
    EmittedOfNumeric(EncodeRow(enc, f, row));
  }

  lemma EmittedOfNumeric(e: Encoded)
    requires e.year.Some? && e.year.value > 2007.0
    requires e.kmDriven.Some? && 0.0 < e.kmDriven.value < 1000000000.0
    requires e.numSeats.Some? && 0.0 < e.numSeats.value < 30.0
    requires e.engineCapacity.Some? && 0.0 < e.engineCapacity.value < 10.0
    ensures EmittedRowOk(ToFeatures(e))
  {
  }

  /** `table` holds, row for row, the rows of `rows` encoded with the fitted state `f`
      and projected to `FEATURES`. */
  predicate EncodedFrom<S, O>(table: seq<seq<Cell>>, enc: Encoders<S, O>, f: Fitted<S, O>, rows: Split) {
    |table| == |rows| && forall i :: 0 <= i < |rows| ==> table[i] == ToFeatures(EncodeRow(enc, f, rows[i]))
  }

  /** `transform` followed by `df[FEATURES]` on one cleaned split. */
  function Emit<S, O>(enc: Encoders<S, O>, f: Fitted<S, O>, rows: Split): (t: seq<seq<Cell>>)
    requires forall row :: row in rows ==> CleanOk(row)
    ensures EncodedFrom(t, enc, f, rows)
    ensures forall i :: 0 <= i < |t| ==> EmittedRowOk(t[i])
  {
    var t := ToTable(EncodeSplit(enc, f, rows));
    forall i | 0 <= i < |t|
      ensures EmittedRowOk(t[i])
    {
      assert rows[i] in rows;
      CleanRowEmitsOk(enc, f, rows[i]);
    }
    t
  }

  /** `prepare_data` without the artifact I/O: impute with train statistics, filter
      each split, fit on the cleaned training split, transform all three, project to
      `FEATURES`. Every split is imputed with the values taken from the training split,
      the encoders are fitted on the cleaned training split alone, and that one fitted
      state encodes all three splits. */
  function PrepareData<S, O>(plan: Plan<S, O>, train: Split, val: Split, test: Split): (r: Prepared<S, O>)
    ensures r.fitted == Fit(plan.encoders, Transform(CleanSplit(plan, plan.fillFrom(train), train), [], []))
    ensures EncodedFrom(r.train, plan.encoders, r.fitted, CleanSplit(plan, plan.fillFrom(train), train))
    ensures EncodedFrom(r.val, plan.encoders, r.fitted, CleanSplit(plan, plan.fillFrom(train), val))
    ensures EncodedFrom(r.test, plan.encoders, r.fitted, CleanSplit(plan, plan.fillFrom(train), test))
    ensures forall i :: 0 <= i < |r.train| ==> EmittedRowOk(r.train[i])
    ensures forall i :: 0 <= i < |r.val| ==> EmittedRowOk(r.val[i])
    ensures forall i :: 0 <= i < |r.test| ==> EmittedRowOk(r.test[i])
  {
    var fill := plan.fillFrom(train);
    var t := Transform(CleanSplit(plan, fill, train), CleanSplit(plan, fill, test), CleanSplit(plan, fill, val));
    var fitted := Fit(plan.encoders, t);
    Prepared(fitted, Emit(plan.encoders, fitted, t.train), Emit(plan.encoders, fitted, t.val), Emit(plan.encoders, fitted, t.test))
  }

  /** The imputation values, the fitted encoders and the emitted training table depend
      on the training split only. */
  lemma PrepareTrainIgnoresHeldOut<S, O>(plan: Plan<S, O>, train: Split, val: Split, test: Split, val': Split, test': Split)
    ensures PrepareData(plan, train, val, test).fitted == PrepareData(plan, train, val', test').fitted
    ensures PrepareData(plan, train, val, test).train == PrepareData(plan, train, val', test').train
  {
  }

  /** The validation table depends on the training and validation splits only, and the
      test table on the training and test splits only: the splits are never crossed. */
  lemma PrepareSplitsNotCrossed<S, O>(plan: Plan<S, O>, train: Split, val: Split, test: Split, val': Split, test': Split)
    ensures PrepareData(plan, train, val, test).val == PrepareData(plan, train, val, test').val
    ensures PrepareData(plan, train, val, test).test == PrepareData(plan, train, val', test).test
  {
  }

  /** The fitted encoders see only cleaned training rows: a training row that either
      filter rejects (after imputation and the target filter) leaves the fit unchanged. */
  lemma FitSeesOnlyCleanRows<S, O>(enc: Encoders<S, O>, a: Split, bad: Row, b: Split, test: Split, val: Split)
    requires !CleanOk(bad)
    ensures Fit(enc, Transform(FilterCategoryFeature(FilterNumericFeature(a + [bad] + b)), test, val))
         == Fit(enc, Transform(FilterCategoryFeature(FilterNumericFeature(a + b)), test, val))
  {
    RejectedRowIsInvisible(a, bad, b);
  }
}

=== FILE: preprocess.dfy ===
/** `components/data_preprocess/__init__.py`: the CSV-based twin of `prepare_data`.
    It reads the three splits from files, runs the same imputation, filters and
    `Transform`, saves the encoders, and returns the projected train, validation and
    test tables, in that order. The file reads, the pickling and the logging are
    outside this model; the filters and `Transform` are those of `Preparation`. */
module Preprocess {
  import opened Records
  import opened Preparation

  /** The three tables `pipeline_preprocessing` returns. */
  datatype Tables = Tables(train: seq<seq<Cell>>, valid: seq<seq<Cell>>, test: seq<seq<Cell>>)

  /** `pipeline_preprocessing`, given the splits it loads (train, test, valid) in that
      order. `Transform` is built as `Transform(df_train, df_test, df_valid)`, and the
      result comes back as `(train, val, test)`. As in `prepare_data`, every split is
      imputed with the training split's values and encoded with the one state fitted on
      the cleaned training split. */
  function PipelinePreprocessing<S, O>(plan: Plan<S, O>, train: Split, test: Split, valid: Split): (r: Tables)
    ensures var fitted := Fit(plan.encoders, Transform(CleanSplit(plan, plan.fillFrom(train), train), [], []));
      && EncodedFrom(r.train, plan.encoders, fitted, CleanSplit(plan, plan.fillFrom(train), train))
      && EncodedFrom(r.valid, plan.encoders, fitted, CleanSplit(plan, plan.fillFrom(train), valid))
      && EncodedFrom(r.test, plan.encoders, fitted, CleanSplit(plan, plan.fillFrom(train), test))
    ensures forall i :: 0 <= i < |r.train| ==> EmittedRowOk(r.train[i])
    ensures forall i :: 0 <= i < |r.valid| ==> EmittedRowOk(r.valid[i])
    ensures forall i :: 0 <= i < |r.test| ==> EmittedRowOk(r.test[i])
  {
    var fill := plan.fillFrom(train);
    var t := Transform(CleanSplit(plan, fill, train), CleanSplit(plan, fill, test), CleanSplit(plan, fill, valid));
    var fitted := Fit(plan.encoders, t);
    Tables(Emit(plan.encoders, fitted, t.train), Emit(plan.encoders, fitted, t.val), Emit(plan.encoders, fitted, t.test))
  }

  /** The two pipelines compute the same tables: the constructor's (train, test, val)
      argument order and the (train, val, test) return order cancel out, so the
      validation output is built from the validation input and the test output from
      the test input. */
  lemma PreprocessingAgreesWithPreparation<S, O>(plan: Plan<S, O>, train: Split, test: Split, valid: Split)
    ensures PipelinePreprocessing(plan, train, test, valid).train == PrepareData(plan, train, valid, test).train
    ensures PipelinePreprocessing(plan, train, test, valid).valid == PrepareData(plan, train, valid, test).val
    ensures PipelinePreprocessing(plan, train, test, valid).test == PrepareData(plan, train, valid, test).test
  {
  }

  /** The returned validation table does not depend on the test file, nor the test
      table on the validation file. */
  lemma PreprocessingSplitsNotCrossed<S, O>(plan: Plan<S, O>, train: Split, test: Split, valid: Split, test': Split, valid': Split)
    ensures PipelinePreprocessing(plan, train, test, valid).valid == PipelinePreprocessing(plan, train, test', valid).valid
    ensures PipelinePreprocessing(plan, train, test, valid).test == PipelinePreprocessing(plan, train, test, valid').test
    ensures PipelinePreprocessing(plan, train, test, valid).train == PipelinePreprocessing(plan, train, test', valid').train
  {
  }
}

=== FILE: records.dfy ===
/** The listing tables. A crawled listing is stored with its MongoDB id, title, url and
    post date (`RawRecord`); the train/validation/test tables hold the same listing
    without those four metadata columns (`Row`). Numeric cells are `Option<real>`
    (`None` is NaN), text cells `Option<string>` (`None` is a missing value). Each
    record type also has a by-name column view, `df[name]`, so that column-level
    statements (dropped, kept, projected) can be made about them. */
module Records {
  import opened Wrappers

  /** One cell of a table as seen through a column name. */
  datatype Cell = Missing | Num(num: real) | Code(code: int) | Text(text: string)

  function NumCell(v: Option<real>): Cell {
    if v.Some? then Num(v.value) else Missing
  }

  function TextCell(v: Option<string>): Cell {
    if v.Some? then Text(v.value) else Missing
  }

  /** A row of the train, validation and test tables. */
  datatype Row = Row(
    year: Option<real>,
    price: Option<real>,
    location: Option<string>,
    branch: Option<string>,
    model: Option<string>,
    origin: Option<string>,
    kmDriven: Option<real>,
    externalColor: Option<string>,
    internalColor: Option<string>,
    numSeats: Option<real>,
    fuels: Option<string>,
    engineCapacity: Option<real>,
    gearbox: Option<string>,
    wheelDrive: Option<string>,
    carType: Option<string>)

  type Split = seq<Row>

  /** A row of the raw dataset, as stored by the crawler. */
  datatype RawRecord = RawRecord(
    id: Option<string>,
    title: Option<string>,
    url: Option<string>,
    year: Option<real>,
    price: Option<real>,
    location: Option<string>,
    branch: Option<string>,
    model: Option<string>,
    origin: Option<string>,
    kmDriven: Option<real>,
    externalColor: Option<string>,
    internalColor: Option<string>,
    numSeats: Option<real>,
    fuels: Option<string>,
    engineCapacity: Option<real>,
    gearbox: Option<string>,
    wheelDrive: Option<string>,
    carType: Option<string>,
    postDate: Option<string>)

  const RowColumns: seq<string> := [
    "year", "price", "location", "branch", "model", "origin", "km_driven", "external_color",
    "internal_color", "num_seats", "fuels", "engine_capacity", "gearbox", "wheel_drive", "car_type"]

  const MetadataColumns: seq<string> := ["_id", "title", "url", "post_date"]

  const RawColumns: seq<string> := ["_id", "title", "url"] + RowColumns[..] + ["post_date"]

  /** `row[name]`, or `None` when the table has no such column. */
  function RowCell(r: Row, name: string): Option<Cell> {
    match name
    case "year" => Some(NumCell(r.year))
    case "price" => Some(NumCell(r.price))
    case "location" => Some(TextCell(r.location))
    case "branch" => Some(TextCell(r.branch))
    case "model" => Some(TextCell(r.model))
    case "origin" => Some(TextCell(r.origin))
    case "km_driven" => Some(NumCell(r.kmDriven))
    case "external_color" => Some(TextCell(r.externalColor))
    case "internal_color" => Some(TextCell(r.internalColor))
    case "num_seats" => Some(NumCell(r.numSeats))
    case "fuels" => Some(TextCell(r.fuels))
    case "engine_capacity" => Some(NumCell(r.engineCapacity))
    case "gearbox" => Some(TextCell(r.gearbox))
    case "wheel_drive" => Some(TextCell(r.wheelDrive))
    case "car_type" => Some(TextCell(r.carType))
    case _ => None
  }

  /** `raw[name]`, or `None` when the raw dataset has no such column. */
  function RawCell(r: RawRecord, name: string): Option<Cell> {
    match name
    case "_id" => Some(TextCell(r.id))
    case "title" => Some(TextCell(r.title))
    case "url" => Some(TextCell(r.url))
    case "year" => Some(NumCell(r.year))
    case "price" => Some(NumCell(r.price))
    case "location" => Some(TextCell(r.location))
    case "branch" => Some(TextCell(r.branch))
    case "model" => Some(TextCell(r.model))
    case "origin" => Some(TextCell(r.origin))
    case "km_driven" => Some(NumCell(r.kmDriven))
    case "external_color" => Some(TextCell(r.externalColor))
    case "internal_color" => Some(TextCell(r.internalColor))
    case "num_seats" => Some(NumCell(r.numSeats))
    case "fuels" => Some(TextCell(r.fuels))
    case "engine_capacity" => Some(NumCell(r.engineCapacity))
    case "gearbox" => Some(TextCell(r.gearbox))
    case "wheel_drive" => Some(TextCell(r.wheelDrive))
    case "car_type" => Some(TextCell(r.carType))
    case "post_date" => Some(TextCell(r.postDate))
    case _ => None
  }

  /** The column views list exactly the declared columns. */
  lemma ColumnsDeclared(row: Row, raw: RawRecord, name: string)
    ensures RowCell(row, name).Some? <==> name in RowColumns
    ensures RawCell(raw, name).Some? <==> name in RawColumns
  {
  }

  /** `df.drop(['_id', 'title', 'url', 'post_date'], axis=1)` on one row: the four
      metadata columns are gone and every other column keeps its value. */
  function DropMetadata(r: RawRecord): (row: Row)
    ensures forall name :: name in MetadataColumns ==> RowCell(row, name) == None
    ensures forall name :: name !in MetadataColumns ==> RowCell(row, name) == RawCell(r, name)
  {
    Row(r.year, r.price, r.location, r.branch, r.model, r.origin, r.kmDriven, r.externalColor,
        r.internalColor, r.numSeats, r.fuels, r.engineCapacity, r.gearbox, r.wheelDrive, r.carType)
  }

  /** The column list after the drop is the raw column list without the metadata, in order. */
  lemma DroppedColumnOrder()
    ensures RowColumns == RawColumns[3..|RawColumns| - 1]
    ensures forall c :: c in RawColumns ==> (c in RowColumns <==> c !in MetadataColumns)
  {
  }
}

=== FILE: spider.dfy ===
/** `crawling/crawler/spiders/bonbanh.py`: `BonbanhSpider`, which walks the listing
    pages of the car-sale site and scrapes one detail page per listing.

    The model covers the decisions the spider takes on text it has already extracted:
    reading the page indicator, checking that the page served is the page asked for,
    building the next page's address, and reading the detail table of a listing. The
    CSS selection, the URL joining and the HTTP requests are outside it: the selected
    texts and `response.urljoin` are parameters. */
module Spider {
  import opened Wrappers
  import opened Frames
  import opened Text
  import opened Items

  // ---------------------------------------------------------------------------
  // _extract_page

  /** The page indicator with `'Trang'` and `'('` removed and its ends stripped. */
  function PageText(info: string): string {
    Strip(Replace(Replace(info, "Trang", ""), "(", ""), Whitespace)
  }

  predicate NonEmpty(w: string) {
    w != ""
  }

  function StripEach(words: seq<string>): (r: seq<string>)
    ensures |r| == |words|
    ensures forall i :: 0 <= i < |r| ==> r[i] == Strip(words[i], Whitespace)
  {
    seq(|words|, i requires 0 <= i < |words| => Strip(words[i], Whitespace))
  }

  /** The non-empty `'/'`-pieces of the indicator, each stripped. */
  function PagePieces(info: string): seq<string> {
    StripEach(Filter(Split(PageText(info), '/'), NonEmpty))
  }

  /** The pieces `isdigit` accepts, in order, read as numbers: a pair exactly when
      there are two of them. */
  function PairOf(pieces: seq<string>): (r: (Option<nat>, Option<nat>))
    ensures r.0.Some? <==> r.1.Some?
    ensures r.0.Some? <==> |Filter(pieces, IsDigits)| == 2
  {
    var numbers := Filter(pieces, IsDigits);
    if |numbers| == 2 then
      assert numbers[0] in numbers && numbers[1] in numbers;
      (Some(DigitsValue(numbers[0])), Some(DigitsValue(numbers[1])))
    else (None, None)
  }

  /** `_extract_page`: the current and the last page number, present together. */
  function ExtractPage(info: string): (r: (Option<nat>, Option<nat>))
    ensures r.0.Some? <==> r.1.Some?
  {
    PairOf(PagePieces(info))
  }

  /** Two numeric pieces are read in their order. */
  lemma PairOfNumbers(x: string, y: string)
    requires IsDigits(x) && IsDigits(y)
    ensures PairOf([x, y]) == (Some(DigitsValue(x)), Some(DigitsValue(y)))
  {
    FilterAllPass([x, y], IsDigits);
  }

  /** With only one numeric piece there is no pair. */
  lemma PairOfOneNumber(x: string, z: string)
    requires IsDigits(x) && !IsDigits(z)
    ensures PairOf([x, z]) == (None, None)
  {
    assert [x, z][1..] == [z] && [z][1..] == [];
    assert Filter([z], IsDigits) == [];
    assert Filter([x, z], IsDigits) == [x] + Filter([z], IsDigits);
  }

  lemma DigitsNotWhitespace(s: string)
    requires AllDigits(s)
    ensures forall i :: 0 <= i < |s| ==> s[i] !in Whitespace && s[i] != '/' && s[i] != ','
  {
  }

  /** Removing a leading word and then a character absent from the rest leaves the rest. */
  lemma PrefixRemoved(word: string, t: string, c: string)
    requires |word| > 0 && |c| > 0
    requires word[0] !in t && c[0] !in t
    ensures Replace(Replace(word + t, word, ""), c, "") == t
  {
    assert StartsWith(word + t, word);
    assert (word + t)[|word|..] == t;
    assert Replace(word + t, word, "") == Replace(t, word, "");
    CharAbsent(t, word, word[0]);
    ReplaceAbsent(t, word, "");
    CharAbsent(t, c, c[0]);
    ReplaceAbsent(t, c, "");
  }

  lemma PrefixRemovedTrang(t: string)
    requires 'T' !in t && '(' !in t
    ensures Replace(Replace("Trang" + t, "Trang", ""), "(", "") == t
  {
    assert "Trang"[0] == 'T';
    PrefixRemoved("Trang", t, "(");
  }

  /** After `'Trang'` and `'('` are removed from `'Trang ' + w`, the space stays. */
  lemma IndicatorCleaned(w: string)
    requires 'T' !in w && '(' !in w
    ensures Replace(Replace("Trang " + w, "Trang", ""), "(", "") == " " + w
  {
    var t := " " + w;
    assert 'T' !in t && '(' !in t;
    assert "Trang " + w == "Trang" + t;
    PrefixRemovedTrang(t);
  }

  /** A leading space before a clean string is stripped away. */
  lemma LeadingSpaceStripped(u: string)
    requires |u| > 0 && u[0] !in Whitespace && u[|u| - 1] !in Whitespace
    ensures Strip(" " + u, Whitespace) == u
  {
    assert (" " + u)[1..] == u;
    StripClean(u, Whitespace);
  }

  /** The indicator `'Trang ' + w` reduces to `w` before it is split. */
  lemma PageTextOf(w: string)
    requires 'T' !in w && '(' !in w
    requires |w| > 0 && w[0] !in Whitespace && w[|w| - 1] !in Whitespace
    ensures PageText("Trang " + w) == w
  {
    IndicatorCleaned(w);
    LeadingSpaceStripped(w);
  }

  /** A piece made of digits and closing parentheses: no whitespace, slash, `'T'` or `'('`. */
  predicate PieceChar(c: char) {
    IsDigit(c) || c == ')'
  }

  /** The characters of `x + '/' + z` for two such pieces. */
  lemma PairChars(x: string, z: string)
    requires |x| > 0 && |z| > 0
    requires forall i :: 0 <= i < |x| ==> PieceChar(x[i])
    requires forall i :: 0 <= i < |z| ==> PieceChar(z[i])
    ensures 'T' !in x + "/" + z && '(' !in x + "/" + z
    ensures (x + "/" + z)[0] !in Whitespace && (x + "/" + z)[|x + "/" + z| - 1] !in Whitespace
    ensures '/' !in x && '/' !in z
    ensures forall i :: 0 <= i < |x| ==> x[i] !in Whitespace
    ensures forall i :: 0 <= i < |z| ==> z[i] !in Whitespace
  {
    var w := x + "/" + z;
    forall i | 0 <= i < |w|
      ensures PieceChar(w[i]) || w[i] == '/'
    {
      if i < |x| {
        assert w[i] == x[i];
      } else if i > |x| {
        assert w[i] == z[i - |x| - 1];
      }
    }
  }

  /** An indicator reducing to `x/z`, with neither piece holding whitespace or a slash,
      has exactly the pieces `x` and `z`. */
  lemma PagePiecesOfPair(info: string, x: string, z: string)
    requires PageText(info) == x + "/" + z
    requires |x| > 0 && |z| > 0 && '/' !in x && '/' !in z
    requires forall i :: 0 <= i < |x| ==> x[i] !in Whitespace
    requires forall i :: 0 <= i < |z| ==> z[i] !in Whitespace
    ensures PagePieces(info) == [x, z]
  {
    PiecesOfPair(x, z);
  }

  lemma PiecesOfPair(x: string, z: string)
    requires |x| > 0 && |z| > 0 && '/' !in x && '/' !in z
    requires forall i :: 0 <= i < |x| ==> x[i] !in Whitespace
    requires forall i :: 0 <= i < |z| ==> z[i] !in Whitespace
    ensures StripEach(Filter(Split(x + "/" + z, '/'), NonEmpty)) == [x, z]
  {
    assert Split(x + "/" + z, '/') == [x, z] by {
      SplitPair(x, z, '/');
    }
    assert Filter([x, z], NonEmpty) == [x, z] by {
      FilterAllPass([x, z], NonEmpty);
    }
    assert StripEach([x, z]) == [x, z] by {
      StripNone(x, Whitespace);
      StripNone(z, Whitespace);
    }
  }

  /** `'Trang x/y'` reads as the pair (x, y), in that order. */
  lemma ExtractPageReads(x: string, y: string)
    requires IsDigits(x) && IsDigits(y)
    ensures ExtractPage("Trang " + (x + "/" + y)) == (Some(DigitsValue(x)), Some(DigitsValue(y)))
  {
    var info := "Trang " + (x + "/" + y);
    PairChars(x, y);
    PageTextOf(x + "/" + y);
    PagePiecesOfPair(info, x, y);
    PairOfNumbers(x, y);
  }

  /** A closing parenthesis after the last page spoils that piece: no pair is read. */
  lemma ExtractPageClosingParenthesis(x: string, y: string)
    requires IsDigits(x) && IsDigits(y)
    ensures ExtractPage("Trang " + (x + "/" + (y + ")"))) == (None, None)
  {
    var z := y + ")";
    var info := "Trang " + (x + "/" + z);
    assert forall i :: 0 <= i < |z| ==> PieceChar(z[i]) by {
      assert forall i :: 0 <= i < |y| ==> z[i] == y[i];
    }
    PairChars(x, z);
    PageTextOf(x + "/" + z);
    PagePiecesOfPair(info, x, z);
    assert !IsDigits(z) by {
      assert z[|z| - 1] == ')';
    }
    PairOfOneNumber(x, z);
  }

  // ---------------------------------------------------------------------------
  // parse: the page check and the next page

  /** `response.url.split(',')[-1].strip()`. */
  function LastSegment(url: string): string {
    var parts := Split(url, ',');
    Strip(parts[|parts| - 1], Whitespace)
  }

  /** The page number the URL asks for: its last `','`-segment, when all digits. */
  function ActualPage(url: string): (r: Option<nat>)
    ensures r.Some? <==> IsDigits(LastSegment(url))
  {
    var last := LastSegment(url);
    if IsDigits(last) then Some(DigitsValue(last)) else None
  }

  /** The address of page `n`: the URL up to its first `','`, then `','` and `n`. */
  function NextPageUrl(url: string, n: nat): string {
    Split(url, ',')[0] + "," + NatToString(n)
  }

  /** The address built for page `n` asks for page `n`, and keeps the listing's base
      address, so every page of a walk shares the first page's base. */
  lemma NextPageRoundTrip(url: string, n: nat)
    ensures ActualPage(NextPageUrl(url, n)) == Some(n)
    ensures Split(NextPageUrl(url, n), ',')[0] == Split(url, ',')[0]
  {
    var base := Split(url, ',')[0];
    var digits := NatToString(n);
    DigitsNotWhitespace(digits);
    SplitPair(base, digits, ',');
    assert NextPageUrl(url, n) == base + [','] + digits;
    StripNone(digits, Whitespace);
  }

  /** The texts selected on a listing page, one list per field, in page order. */
  datatype Listing = Listing(urls: seq<string>, years: seq<string>, prices: seq<string>, locations: seq<string>, titles: seq<string>)

  /** Every per-item list reaches as far as the list of item links. */
  predicate Aligned(l: Listing) {
    |l.years| >= |l.urls| && |l.prices| >= |l.urls| && |l.locations| >= |l.urls| && |l.titles| >= |l.urls|
  }

  /** A request for one listing's detail page with the fields read on the listing page. */
  datatype DetailRequest = DetailRequest(url: string, year: string, price: string, location: string, title: string)

  /** The requests `parse` yields: the detail pages, then possibly the next listing page. */
  datatype ParseOutcome = ParseOutcome(details: seq<DetailRequest>, next: Option<string>)

  /** The page served is the page the URL asked for: the URL names a page and the
      indicator's current page is that page. */
  predicate OnPage(url: string, current: Option<nat>) {
    ActualPage(url).Some? && current == ActualPage(url)
  }

  /** What `parse` yields once the indicator is read as `pages` (current, last). */
  function FollowPage(url: string, pages: (Option<nat>, Option<nat>), listing: Listing, join: string -> string, oodPosts: nat, maxOodPosts: int): (r: ParseOutcome)
    requires pages.0.Some? <==> pages.1.Some?
    requires OnPage(url, pages.0) ==> Aligned(listing)
    ensures !OnPage(url, pages.0) ==> r == ParseOutcome([], None)
    ensures OnPage(url, pages.0) ==> |r.details| == |listing.urls|
    ensures forall i :: 0 <= i < |r.details| ==>
      r.details[i] == DetailRequest(join(listing.urls[i]), listing.years[i], listing.prices[i], listing.locations[i], listing.titles[i])
    ensures r.next.Some? <==> (OnPage(url, pages.0) && pages.0.value + 1 <= pages.1.value && oodPosts <= maxOodPosts)
    ensures r.next.Some? ==> ActualPage(r.next.value) == Some(pages.0.value + 1)
    ensures r.next.Some? ==> Split(r.next.value, ',')[0] == Split(url, ',')[0]
  {
    if !OnPage(url, pages.0) then ParseOutcome([], None)
    else
      var details := seq(|listing.urls|, i requires 0 <= i < |listing.urls| =>
        DetailRequest(join(listing.urls[i]), listing.years[i], listing.prices[i], listing.locations[i], listing.titles[i]));
      var nextPage := pages.0.value + 1;
      NextPageRoundTrip(url, nextPage);
      if nextPage <= pages.1.value && oodPosts <= maxOodPosts then ParseOutcome(details, Some(NextPageUrl(url, nextPage)))
      else ParseOutcome(details, None)
  }

  /** `parse`, given the response URL, the page indicator text, the selected listing
      texts, `response.urljoin`, the spider's out-of-date counter and the
      `MAX_OOD_POSTS` setting. */
  function Parse(url: string, pageInfo: string, listing: Listing, join: string -> string, oodPosts: nat, maxOodPosts: int): ParseOutcome
    requires OnPage(url, ExtractPage(pageInfo).0) ==> Aligned(listing)
  {
    FollowPage(url, ExtractPage(pageInfo), listing, join, oodPosts, maxOodPosts)
  }

  /** The next page, once served with an indicator showing the page after this one,
      passes the page check in its turn. */
  lemma NextPagePassesCheck(url: string, pages: (Option<nat>, Option<nat>), listing: Listing, join: string -> string, oodPosts: nat, maxOodPosts: int, nextInfo: string)
    requires pages.0.Some? <==> pages.1.Some?
    requires OnPage(url, pages.0) ==> Aligned(listing)
    requires FollowPage(url, pages, listing, join, oodPosts, maxOodPosts).next.Some?
    requires ExtractPage(nextInfo).0 == Some(pages.0.value + 1)
    ensures OnPage(FollowPage(url, pages, listing, join, oodPosts, maxOodPosts).next.value, ExtractPage(nextInfo).0)
  {
  }

  // ---------------------------------------------------------------------------
  // parse_info: the detail table

  /** One `div.row` of the detail page: its label text and its value text. */
  datatype DetailRow = DetailRow(name: string, value: string)

  const NoBreakSpace: char := '\U{A0}'
  const KeyPadding: set<char> := {'\t', ' ', ':'}
  const ValuePadding: set<char> := {' ', '\t'}

  /** A label with its no-break spaces made plain and `'\t :'` stripped from both ends. */
  function CleanKey(k: string): (r: string)
    ensures NoBreakSpace !in r
    ensures |r| > 0 ==> r[0] !in KeyPadding && r[|r| - 1] !in KeyPadding
  {
    var plain := Replace(k, [NoBreakSpace], " ");
    ReplaceCharRemoves(k, NoBreakSpace, ' ');
    StripKeepsAbsent(plain, KeyPadding, NoBreakSpace);
    Strip(plain, KeyPadding)
  }

  /** Cleaning a cleaned label changes nothing. */
  lemma CleanKeyIdempotent(k: string)
    ensures CleanKey(CleanKey(k)) == CleanKey(k)
  {
    var c := CleanKey(k);
    CharAbsent(c, [NoBreakSpace], NoBreakSpace);
    ReplaceAbsent(c, [NoBreakSpace], " ");
    StripClean(c, KeyPadding);
  }

  /** A label already free of no-break spaces and of padding is its own cleaning. */
  lemma CleanKeyOfClean(k: string)
    requires NoBreakSpace !in k
    requires |k| > 0 ==> k[0] !in KeyPadding && k[|k| - 1] !in KeyPadding
    ensures CleanKey(k) == k
  {
    CharAbsent(k, [NoBreakSpace], NoBreakSpace);
    ReplaceAbsent(k, [NoBreakSpace], " ");
    StripClean(k, KeyPadding);
  }

  /** `detail_car`: the cleaned labels, row by row. */
  function Keys(rows: seq<DetailRow>): (r: seq<string>)
    ensures |r| == |rows|
    ensures forall i :: 0 <= i < |r| ==> r[i] == CleanKey(rows[i].name)
  {
    seq(|rows|, i requires 0 <= i < |rows| => CleanKey(rows[i].name))
  }

  /** `detail_car_info`: the values with spaces and tabs stripped, row by row. */
  function Values(rows: seq<DetailRow>): (r: seq<string>)
    ensures |r| == |rows|
    ensures forall i :: 0 <= i < |r| ==> r[i] == Strip(rows[i].value, ValuePadding)
  {
    seq(|rows|, i requires 0 <= i < |rows| => Strip(rows[i].value, ValuePadding))
  }

  /** `list.index`: the position of the first occurrence. */
  function IndexOf(keys: seq<string>, k: string): (i: nat)
    requires k in keys
    ensures i < |keys| && keys[i] == k
    ensures forall j :: 0 <= j < i ==> keys[j] != k
  {
    if keys[0] == k then 0 else 1 + IndexOf(keys[1..], k)
  }

  /** `list.remove`: the first occurrence goes, the rest close up. */
  function RemoveFirst(keys: seq<string>, k: string): (r: seq<string>)
    requires k in keys
    ensures |r| == |keys| - 1
    ensures forall j :: 0 <= j < |r| ==> r[j] == if j < IndexOf(keys, k) then keys[j] else keys[j + 1]
  {
    var i := IndexOf(keys, k);
    keys[..i] + keys[i + 1..]
  }

  /** Exactly one copy of `k` goes and every other label keeps its count. */
  lemma RemoveFirstCounts(keys: seq<string>, k: string)
    requires k in keys
    ensures multiset(RemoveFirst(keys, k)) == multiset(keys) - multiset{k}
  {
    var i := IndexOf(keys, k);
    assert keys == keys[..i] + [k] + keys[i + 1..];
  }

  /** The seat-count label, which the spider drops from the label list. */
  const SeatsLabel: string := "S\U{1ED1} ch\U{1ED7} ng\U{1ED3}i"

  /** The label list after `detail_car.remove('Số chỗ ngồi')` when the label is there.
      The value list is left as it was, so the label list is never the longer one. */
  function DetailKeys(keys: seq<string>): (r: seq<string>)
    ensures |r| <= |keys|
    ensures SeatsLabel in keys ==> |r| == |keys| - 1
  {
    if SeatsLabel in keys then RemoveFirst(keys, SeatsLabel) else keys
  }

  /** `detail_car_info[detail_car.index(label)]` when `label in detail_car`, else None. */
  function Lookup(keys: seq<string>, values: seq<string>, name: string): (r: Option<string>)
    requires |keys| <= |values|
    ensures r.Some? <==> name in keys
  {
    if name in keys then Some(values[IndexOf(keys, name)]) else None
  }

  /** The value `parse_info` reads for a label from the table's rows. */
  function Field(rows: seq<DetailRow>, name: string): Option<string> {
    Lookup(DetailKeys(Keys(rows)), Values(rows), name)
  }

  /** Removing the first `s` moves the first `k` (another label) one place down when
      it came after the removed `s`, and leaves it in place otherwise. */
  lemma {:induction false} IndexAfterRemove(keys: seq<string>, s: string, k: string)
    requires s in keys && k in keys && k != s
    ensures k in RemoveFirst(keys, s)
    ensures IndexOf(RemoveFirst(keys, s), k) ==
      (if IndexOf(keys, k) < IndexOf(keys, s) then IndexOf(keys, k) else IndexOf(keys, k) - 1)
  {
    var p := IndexOf(keys, s);
    var j := IndexOf(keys, k);
    var r := RemoveFirst(keys, s);
    var j' := if j < p then j else j - 1;
    assert r[j'] == k;
    forall m | 0 <= m < j'
      ensures r[m] != k
    {
      if m < p {
        assert r[m] == keys[m];
      } else {
        assert r[m] == keys[m + 1];
      }
    }
    IndexOfFirst(r, k, j');
  }

  /** A position holding `k` with no `k` before it is `k`'s index. */
  lemma {:induction false} IndexOfFirst(keys: seq<string>, k: string, j: nat)
    requires j < |keys| && keys[j] == k
    requires forall m :: 0 <= m < j ==> keys[m] != k
    ensures IndexOf(keys, k) == j
    decreases j
  {
    if j > 0 {
      IndexOfFirst(keys[1..], k, j - 1);
    }
  }

  /** Without a seat-count row, each label reads the value of the first row carrying it. */
  lemma FieldWithoutSeats(rows: seq<DetailRow>, name: string)
    requires SeatsLabel !in Keys(rows)
    ensures Field(rows, name).Some? <==> name in Keys(rows)
    ensures name in Keys(rows) ==>
      Field(rows, name) == Some(Strip(rows[IndexOf(Keys(rows), name)].value, ValuePadding))
  {
  }

  /** With a seat-count row, a label whose first row comes after it reads the value of
      the row just before its own: the label list closed up, the value list did not. A
      label before the seat-count row still reads its own row. */
  lemma FieldAfterSeats(rows: seq<DetailRow>, name: string)
    requires SeatsLabel in Keys(rows) && name in Keys(rows) && name != SeatsLabel
    ensures var j, p := IndexOf(Keys(rows), name), IndexOf(Keys(rows), SeatsLabel);
      Field(rows, name) == Some(Strip(rows[if j < p then j else j - 1].value, ValuePadding))
  {
    IndexAfterRemove(Keys(rows), SeatsLabel, name);
  }

  /** Labels the spider reads, as the site writes them. */
  const OriginLabel: string := "Xu\U{1EA5}t x\U{1EE9}"
  const KmDrivenLabel: string := "S\U{1ED1} Km \U{111}\U{E3} \U{111}i"
  const ExternalColorLabel: string := "M\U{E0}u ngo\U{1EA1}i th\U{1EA5}t"
  const InternalColorLabel: string := "M\U{E0}u n\U{1ED9}i th\U{1EA5}t"
  const EngineLabel: string := "\U{110}\U{1ED9}ng c\U{1A1}"
  const GearboxLabel: string := "H\U{1ED9}p s\U{1ED1}"
  const WheelDriveLabel: string := "D\U{1EAB}n \U{111}\U{1ED9}ng"
  const CarTypeLabel: string := "D\U{F2}ng xe"

  /** A label in the row right after the seat-count row reads the seat count's value. */
  lemma SeatsShiftNextRow(k: string, seats: string, v: string)
    requires CleanKey(SeatsLabel) == SeatsLabel && CleanKey(k) == k && k != SeatsLabel
    ensures Field([DetailRow(SeatsLabel, seats), DetailRow(k, v)], k) == Some(Strip(seats, ValuePadding))
  {
    var rows := [DetailRow(SeatsLabel, seats), DetailRow(k, v)];
    assert Keys(rows) == [SeatsLabel, k];
    assert IndexOf(Keys(rows), SeatsLabel) == 0;
    assert IndexOf(Keys(rows), k) == 1;
    FieldAfterSeats(rows, k);
  }

  /** The engine row right after the seat-count row carries the seat count's value
      into `engine_info`. */
  lemma SeatsShiftIntoEngine(seats: string, engine: string)
    ensures Field([DetailRow(SeatsLabel, seats), DetailRow(EngineLabel, engine)], EngineLabel)
      == Some(Strip(seats, ValuePadding))
  {
    SeatsLabelClean();
    EngineLabelClean();
    SeatsShiftNextRow(EngineLabel, seats, engine);
  }

  lemma SeatsLabelClean()
    ensures CleanKey(SeatsLabel) == SeatsLabel
  {
    CleanKeyOfClean(SeatsLabel);
  }

  lemma EngineLabelClean()
    ensures CleanKey(EngineLabel) == EngineLabel && EngineLabel != SeatsLabel
  {
    CleanKeyOfClean(EngineLabel);
    assert EngineLabel[0] != SeatsLabel[0];
  }

  /** `parse_info`, given the fields carried over from the listing page, the post-date
      text, the breadcrumb entries, the detail table's rows and the seat-count text. */
  function ParseInfo(url: string, title: string, year: string, price: string, location: string,
                     rawPostDate: Option<string>, crumbs: seq<string>, rows: seq<DetailRow>,
                     numSeats: Option<string>): (r: RawItem)
    ensures r.branch.Some? <==> |crumbs| == 3
    ensures r.model.Some? <==> |crumbs| == 3
    ensures |crumbs| == 3 ==> r.branch == Some(crumbs[0]) && r.model == Some(crumbs[1])
    ensures r.url == Some(url) && r.title == Some(title) && r.year == Some(year)
    ensures r.price == Some(price) && r.location == Some(location)
    ensures r.numSeats == numSeats && r.rawPostDate == rawPostDate
    ensures r.rawOrigin.Some? <==> OriginLabel in DetailKeys(Keys(rows))
    ensures r.carType.Some? <==> CarTypeLabel in DetailKeys(Keys(rows))
    ensures r.rawOrigin == Field(rows, OriginLabel) && r.rawKmDriven == Field(rows, KmDrivenLabel)
    ensures r.externalColor == Field(rows, ExternalColorLabel) && r.internalColor == Field(rows, InternalColorLabel)
    ensures r.engineInfo == Field(rows, EngineLabel) && r.gearbox == Field(rows, GearboxLabel)
    ensures r.wheelDrive == Field(rows, WheelDriveLabel) && r.carType == Field(rows, CarTypeLabel)
  {
    var branch := if |crumbs| == 3 then Some(crumbs[0]) else None;
    var model := if |crumbs| == 3 then Some(crumbs[1]) else None;
    RawItem(
      Some(title), Some(url), Some(year), Some(price), Some(location),
      branch, model,
      Field(rows, OriginLabel), Field(rows, KmDrivenLabel),
      Field(rows, ExternalColorLabel), Field(rows, InternalColorLabel),
      numSeats,
      Field(rows, EngineLabel), Field(rows, GearboxLabel),
      Field(rows, WheelDriveLabel), Field(rows, CarTypeLabel),
      rawPostDate)
  }
}

=== FILE: text.dfy ===
/** The Python `str` operations the crawler and the spider rely on, as pure functions
    over `string` (a sequence of Unicode scalar values):
    `replace`, `split(sep)`, `strip(chars)`, `lower`, `isdigit`, `int()`, `float()` and `str(n)`.
    Digits are ASCII digits only; see README for what that leaves out. */
module Text {
  import opened Wrappers

  /** The characters for which Python's `str.isspace` holds; `str.strip()` with no
      argument removes exactly these from both ends. */
  const Whitespace: set<char> := {
    '\t', '\n', '\U{B}', '\U{C}', '\r', '\U{1C}', '\U{1D}', '\U{1E}', '\U{1F}', ' ',
    '\U{85}', '\U{A0}', '\U{1680}', '\U{2000}', '\U{2001}', '\U{2002}', '\U{2003}',
    '\U{2004}', '\U{2005}', '\U{2006}', '\U{2007}', '\U{2008}', '\U{2009}', '\U{200A}',
    '\U{2028}', '\U{2029}', '\U{202F}', '\U{205F}', '\U{3000}'
  }

  // ---------------------------------------------------------------------------
  // Substrings

  predicate StartsWith(s: string, prefix: string) {
    |prefix| <= |s| && s[..|prefix|] == prefix
  }

  /** Python's `sub in s`. The empty string occurs in every string. */
  predicate Occurs(s: string, sub: string)
    decreases |s|
  {
    StartsWith(s, sub) || (|s| > 0 && Occurs(s[1..], sub))
  }

  /** `sub` sits in `s` at position `i`. */
  predicate OccursAtIndex(s: string, sub: string, i: int) {
    0 <= i <= |s| - |sub| && s[i..i + |sub|] == sub
  }

  /** `Occurs` agrees with the positional reading: some window of `s` equals `sub`. */
  lemma {:induction false} OccursAt(s: string, sub: string)
    ensures Occurs(s, sub) <==> exists i :: OccursAtIndex(s, sub, i)
    decreases |s|
  {
    if StartsWith(s, sub) {
      assert OccursAtIndex(s, sub, 0);
    } else if |s| > 0 {
      OccursAt(s[1..], sub);
      if Occurs(s[1..], sub) {
        var i :| OccursAtIndex(s[1..], sub, i);
        assert OccursAtIndex(s, sub, i + 1);
      }
      if exists i :: OccursAtIndex(s, sub, i) {
        var i :| OccursAtIndex(s, sub, i);
        assert i > 0;
        assert OccursAtIndex(s[1..], sub, i - 1);
      }
    }
  }

  /** A string lacking one of `sub`'s characters does not contain `sub`. */
  lemma CharAbsent(s: string, sub: string, c: char)
    requires c in sub && c !in s
    ensures !Occurs(s, sub)
  {
    OccursAt(s, sub);
  }

  // ---------------------------------------------------------------------------
  // str.replace

  /** `s.replace('', sep)`: `sep` before every character and at the end. */
  function Interleave(s: string, sep: string): string
    decreases |s|
  {
    if |s| == 0 then sep else sep + [s[0]] + Interleave(s[1..], sep)
  }

  /** Python's `s.replace(pattern, repl)`: every non-overlapping occurrence of
      `pattern`, found scanning left to right, is replaced by `repl`. */
  function Replace(s: string, pattern: string, repl: string): string
    decreases |s|
  {
    if |pattern| == 0 then Interleave(s, repl)
    else if |s| == 0 then s
    else if StartsWith(s, pattern) then repl + Replace(s[|pattern|..], pattern, repl)
    else [s[0]] + Replace(s[1..], pattern, repl)
  }

  /** A string in which the pattern does not occur comes back unchanged. */
  lemma {:induction false} ReplaceAbsent(s: string, pattern: string, repl: string)
    requires !Occurs(s, pattern)
    ensures Replace(s, pattern, repl) == s
    decreases |s|
  {
    if |s| > 0 {
      ReplaceAbsent(s[1..], pattern, repl);
    }
  }

  /** Replacing a pattern by itself changes nothing. */
  lemma {:induction false} ReplaceByItself(s: string, k: string)
    requires |k| > 0
    ensures Replace(s, k, k) == s
    decreases |s|
  {
    if |s| > 0 {
      if StartsWith(s, k) {
        ReplaceByItself(s[|k|..], k);
        assert s == k + s[|k|..];
      } else {
        ReplaceByItself(s[1..], k);
      }
    }
  }

  /** A string that is exactly the pattern becomes exactly the replacement. */
  lemma ReplaceWhole(k: string, v: string)
    requires |k| > 0
    ensures Replace(k, k, v) == v
  {
    assert k[|k|..] == "";
  }

  /** Replacement by a string of the same length keeps the length. */
  lemma {:induction false} ReplaceSameLength(s: string, pattern: string, repl: string)
    requires |pattern| == |repl| > 0
    ensures |Replace(s, pattern, repl)| == |s|
    decreases |s|
  {
    if |s| > 0 {
      if StartsWith(s, pattern) {
        ReplaceSameLength(s[|pattern|..], pattern, repl);
      } else {
        ReplaceSameLength(s[1..], pattern, repl);
      }
    }
  }

  /** Every character of the result comes from the input or from the replacement. */
  lemma {:induction false} ReplaceChars(s: string, pattern: string, repl: string, c: char)
    requires |pattern| > 0
    requires c in Replace(s, pattern, repl)
    ensures c in s || c in repl
    decreases |s|
  {
    if |s| > 0 {
      if StartsWith(s, pattern) {
        var rest := Replace(s[|pattern|..], pattern, repl);
        if c in rest {
          ReplaceChars(s[|pattern|..], pattern, repl, c);
          assert s[|pattern|..] == s[|pattern|..|s|];
        }
      } else {
        var rest := Replace(s[1..], pattern, repl);
        if c in rest {
          ReplaceChars(s[1..], pattern, repl, c);
        }
      }
    }
  }

  /** Replacing one character by another, position by position. */
  lemma {:induction false} ReplaceChar(s: string, a: char, b: char)
    ensures |Replace(s, [a], [b])| == |s|
    ensures forall i :: 0 <= i < |s| ==> Replace(s, [a], [b])[i] == if s[i] == a then b else s[i]
    decreases |s|
  {
    if |s| > 0 {
      ReplaceChar(s[1..], a, b);
    }
  }

  /** Replacing every `a` by some other character leaves no `a`. */
  lemma ReplaceCharRemoves(s: string, a: char, b: char)
    requires a != b
    ensures a !in Replace(s, [a], [b])
  {
    ReplaceChar(s, a, b);
  }

  /** A prefix holding no copy of the pattern's first character is copied through. */
  lemma {:induction false} ReplaceSkipsPrefix(a: string, b: string, pattern: string, repl: string)
    requires |pattern| > 0 && pattern[0] !in a
    ensures Replace(a + b, pattern, repl) == a + Replace(b, pattern, repl)
    decreases |a|
  {
    if |a| > 0 {
      assert (a + b)[0] == a[0] != pattern[0];
      assert !StartsWith(a + b, pattern);
      assert (a + b)[1..] == a[1..] + b;
      ReplaceSkipsPrefix(a[1..], b, pattern, repl);
    } else {
      assert a + b == b;
    }
  }

  /** `BonBanhPipeline._replace_all`: `text.replace(key, value)` for every entry of
      the dictionary, in insertion order. */
  function ReplaceAll(s: string, table: seq<(string, string)>): string
    decreases |table|
  {
    if |table| == 0 then s else ReplaceAll(Replace(s, table[0].0, table[0].1), table[1..])
  }

  /** A string containing none of the keys is returned unchanged. */
  lemma {:induction false} ReplaceAllAbsent(s: string, table: seq<(string, string)>)
    requires forall j :: 0 <= j < |table| ==> !Occurs(s, table[j].0)
    ensures ReplaceAll(s, table) == s
    decreases |table|
  {
    if |table| > 0 {
      ReplaceAbsent(s, table[0].0, table[0].1);
      ReplaceAllAbsent(s, table[1..]);
    }
  }

  /** A string in which every key that occurs is mapped to itself is returned unchanged. */
  lemma {:induction false} ReplaceAllFixed(s: string, table: seq<(string, string)>)
    requires forall j :: 0 <= j < |table| ==> |table[j].0| > 0
    requires forall j :: 0 <= j < |table| ==> table[j].0 == table[j].1 || !Occurs(s, table[j].0)
    ensures ReplaceAll(s, table) == s
    decreases |table|
  {
    if |table| > 0 {
      if table[0].0 == table[0].1 {
        ReplaceByItself(s, table[0].0);
      } else {
        ReplaceAbsent(s, table[0].0, table[0].1);
      }
      ReplaceAllFixed(s, table[1..]);
    }
  }

  /** A string equal to the key of entry `k` becomes that entry's value, provided no
      earlier key occurs in it and no later key occurs in the value. */
  lemma {:induction false} ReplaceAllExact(s: string, table: seq<(string, string)>, k: nat)
    requires k < |table| && s == table[k].0 && |s| > 0
    requires forall j :: 0 <= j < k ==> !Occurs(s, table[j].0)
    requires forall j :: k < j < |table| ==> !Occurs(table[k].1, table[j].0)
    ensures ReplaceAll(s, table) == table[k].1
    decreases |table|
  {
    if k == 0 {
      ReplaceWhole(s, table[0].1);
      ReplaceAllAbsent(table[0].1, table[1..]);
    } else {
      ReplaceAbsent(s, table[0].0, table[0].1);
      ReplaceAllExact(s, table[1..], k - 1);
    }
  }

  /** A text made of a key and a remainder free of that key: the key is replaced and
      the remainder is copied through. */
  lemma ReplaceKeyThen(key: string, rest: string, v: string)
    requires |key| > 0 && !Occurs(rest, key)
    ensures Replace(key + rest, key, v) == v + rest
  {
    assert (key + rest)[..|key|] == key;
    assert (key + rest)[|key|..] == rest;
    ReplaceAbsent(rest, key, v);
  }

  /** Replacement works on substrings: a text that starts with the key of entry `k`
      and goes on with `rest` becomes that entry's value followed by `rest`, provided
      `rest` holds no copy of the key, no earlier key occurs in the text, and no later
      key occurs in the rewritten text. */
  lemma {:induction false} ReplaceAllKeyThen(table: seq<(string, string)>, k: nat, rest: string)
    requires k < |table| && |table[k].0| > 0
    requires !Occurs(rest, table[k].0)
    requires forall j :: 0 <= j < k ==> !Occurs(table[k].0 + rest, table[j].0)
    requires forall j :: k < j < |table| ==> !Occurs(table[k].1 + rest, table[j].0)
    ensures ReplaceAll(table[k].0 + rest, table) == table[k].1 + rest
    decreases |table|
  {
    if k == 0 {
      ReplaceKeyThen(table[0].0, rest, table[0].1);
      forall j | 0 <= j < |table[1..]|
        ensures !Occurs(table[0].1 + rest, table[1..][j].0)
      {
        assert table[1..][j] == table[j + 1];
      }
      ReplaceAllAbsent(table[0].1 + rest, table[1..]);
    } else {
      ReplaceAbsent(table[k].0 + rest, table[0].0, table[0].1);
      ReplaceAllKeyThen(table[1..], k - 1, rest);
    }
  }

  /** Every character of the result comes from the input or from one of the values. */
  lemma {:induction false} ReplaceAllChars(s: string, table: seq<(string, string)>, c: char)
    requires forall j :: 0 <= j < |table| ==> |table[j].0| > 0
    requires c in ReplaceAll(s, table)
    ensures c in s || exists j :: 0 <= j < |table| && c in table[j].1
    decreases |table|
  {
    if |table| > 0 {
      var t := Replace(s, table[0].0, table[0].1);
      ReplaceAllChars(t, table[1..], c);
      if c in t {
        ReplaceChars(s, table[0].0, table[0].1, c);
      } else {
        var j :| 0 <= j < |table[1..]| && c in table[1..][j].1;
        assert c in table[j + 1].1;
      }
    }
  }

  /** `ReplaceAllExact` with the absence of each other key witnessed by one of its
      characters: `marks[j]` is a character of key `j` missing from `s` (for earlier
      keys) or from the value of entry `k` (for later keys). */
  lemma ReplaceAllExactBy(s: string, table: seq<(string, string)>, k: nat, marks: seq<char>)
    requires k < |table| && s == table[k].0 && |s| > 0 && |marks| == |table|
    requires forall j :: 0 <= j < k ==> marks[j] in table[j].0 && marks[j] !in s
    requires forall j :: k < j < |table| ==> marks[j] in table[j].0 && marks[j] !in table[k].1
    ensures ReplaceAll(s, table) == table[k].1
  {
    forall j | 0 <= j < k
      ensures !Occurs(s, table[j].0)
    {
      CharAbsent(s, table[j].0, marks[j]);
    }
    forall j | k < j < |table|
      ensures !Occurs(table[k].1, table[j].0)
    {
      CharAbsent(table[k].1, table[j].0, marks[j]);
    }
    ReplaceAllExact(s, table, k);
  }

  /** `ReplaceAllAbsent` with the absence of each key witnessed by one of its characters. */
  lemma ReplaceAllAbsentBy(s: string, table: seq<(string, string)>, marks: seq<char>)
    requires |marks| == |table|
    requires forall j :: 0 <= j < |table| ==> marks[j] in table[j].0 && marks[j] !in s
    ensures ReplaceAll(s, table) == s
  {
    forall j | 0 <= j < |table|
      ensures !Occurs(s, table[j].0)
    {
      CharAbsent(s, table[j].0, marks[j]);
    }
    ReplaceAllAbsent(s, table);
  }

  // ---------------------------------------------------------------------------
  // str.split(sep) and its inverse sep.join(parts)

  /** `sep.join(parts)` for a one-character separator. */
  function Join(parts: seq<string>, sep: char): string
    requires |parts| > 0
    decreases |parts|
  {
    if |parts| == 1 then parts[0] else parts[0] + [sep] + Join(parts[1..], sep)
  }

  /** Python's `s.split(sep)` for a one-character separator: the pieces between
      separators, always at least one, none containing `sep`; joining them back
      with `sep` gives `s`. */
  function Split(s: string, sep: char): (parts: seq<string>)
    ensures |parts| > 0
    ensures forall i :: 0 <= i < |parts| ==> sep !in parts[i]
    ensures Join(parts, sep) == s
    decreases |s|
  {
    if |s| == 0 then [""]
    else if s[0] == sep then
      var rest := Split(s[1..], sep);
      assert s == [sep] + s[1..];
      [""] + rest
    else
      var rest := Split(s[1..], sep);
      var parts := [[s[0]] + rest[0]] + rest[1..];
      JoinPrepend(s[0], rest, sep);
      assert s == [s[0]] + s[1..];
      parts
  }

  lemma JoinPrepend(c: char, parts: seq<string>, sep: char)
    requires |parts| > 0
    ensures Join([[c] + parts[0]] + parts[1..], sep) == [c] + Join(parts, sep)
  {
    var q := [[c] + parts[0]] + parts[1..];
    if |parts| > 1 {
      assert q[1..] == parts[1..];
    }
  }

  /** The other half of the round trip: splitting a join of separator-free pieces
      gives the pieces back. */
  lemma {:induction false} SplitJoin(parts: seq<string>, sep: char)
    requires |parts| > 0
    requires forall i :: 0 <= i < |parts| ==> sep !in parts[i]
    ensures Split(Join(parts, sep), sep) == parts
    decreases |Join(parts, sep)|
  {
    var s := Join(parts, sep);
    var p := Split(s, sep);
    if |parts| == 1 {
      SplitNoSeparator(parts[0], sep);
    } else {
      var rest := Join(parts[1..], sep);
      SplitJoin(parts[1..], sep);
      SplitAfterPiece(parts[0], rest, sep);
    }
  }

  lemma {:induction false} SplitNoSeparator(s: string, sep: char)
    requires sep !in s
    ensures Split(s, sep) == [s]
    decreases |s|
  {
    if |s| > 0 {
      SplitNoSeparator(s[1..], sep);
    }
  }

  /** Splitting `piece + sep + rest` yields `piece` followed by the split of `rest`. */
  lemma {:induction false} SplitAfterPiece(piece: string, rest: string, sep: char)
    requires sep !in piece
    ensures Split(piece + [sep] + rest, sep) == [piece] + Split(rest, sep)
    decreases |piece|
  {
    var s := piece + [sep] + rest;
    if |piece| == 0 {
      assert s[1..] == rest;
    } else {
      assert s[1..] == piece[1..] + [sep] + rest;
      SplitAfterPiece(piece[1..], rest, sep);
      assert [piece[0]] + piece[1..] == piece;
    }
  }

  /** The first piece of a split is the text before the first separator. */
  lemma {:induction false} SplitFirstIsPrefix(s: string, sep: char)
    ensures StartsWith(s, Split(s, sep)[0])
    ensures |Split(s, sep)[0]| < |s| ==> s[|Split(s, sep)[0]|] == sep
    decreases |s|
  {
    if |s| > 0 && s[0] != sep {
      SplitFirstIsPrefix(s[1..], sep);
    }
  }

  // ---------------------------------------------------------------------------
  // str.strip(chars)

  /** `s.lstrip(chars)`: drops the longest prefix made of characters in `chars`. */
  function StripLeft(s: string, chars: set<char>): (r: string)
    ensures |r| <= |s| && r == s[|s| - |r|..]
    ensures forall i :: 0 <= i < |s| - |r| ==> s[i] in chars
    ensures |r| > 0 ==> r[0] !in chars
    decreases |s|
  {
    if |s| > 0 && s[0] in chars then StripLeft(s[1..], chars) else s
  }

  /** `s.rstrip(chars)`: drops the longest suffix made of characters in `chars`. */
  function StripRight(s: string, chars: set<char>): (r: string)
    ensures |r| <= |s| && r == s[..|r|]
    ensures forall i :: |r| <= i < |s| ==> s[i] in chars
    ensures |r| > 0 ==> r[|r| - 1] !in chars
    decreases |s|
  {
    if |s| > 0 && s[|s| - 1] in chars then StripRight(s[..|s| - 1], chars) else s
  }

  /** `r` sits at index `i` of `s`, and everything of `s` before and after it is in
      `chars`. */
  predicate TrimmedAt(s: string, r: string, chars: set<char>, i: int) {
    && OccursAtIndex(s, r, i)
    && (forall j :: 0 <= j < i ==> s[j] in chars)
    && (forall j :: i + |r| <= j < |s| ==> s[j] in chars)
  }

  /** `s.strip(chars)`: both ends. Only characters of `chars` are removed, and the
      result neither starts nor ends with one. */
  function Strip(s: string, chars: set<char>): (r: string)
    ensures exists i :: OccursAtIndex(s, r, i)
    ensures exists i :: TrimmedAt(s, r, chars, i)
    ensures |r| > 0 ==> r[0] !in chars && r[|r| - 1] !in chars
  {
    var l := StripLeft(s, chars);
    var m := StripRight(l, chars);
    StripBothEnds(s, chars, l, m);
    assert OccursAtIndex(s, m, |s| - |l|);
    m
  }

  /** Stripping the left end and then the right end trims `s` to a window. */
  lemma StripBothEnds(s: string, chars: set<char>, l: string, m: string)
    requires l == StripLeft(s, chars) && m == StripRight(l, chars)
    ensures TrimmedAt(s, m, chars, |s| - |l|)
  {
    var i := |s| - |l|;
    assert s[i..] == l;
    assert l[..|m|] == m;
    forall j | i + |m| <= j < |s|
      ensures s[j] in chars
    {
      assert s[j] == l[j - i];
    }
  }

  /** A string with no stripped character at either end is its own strip. */
  lemma StripClean(s: string, chars: set<char>)
    requires |s| > 0 ==> s[0] !in chars && s[|s| - 1] !in chars
    ensures Strip(s, chars) == s
  {
  }

  /** Stripping adds no character. */
  lemma StripKeepsAbsent(s: string, chars: set<char>, c: char)
    requires c !in s
    ensures c !in Strip(s, chars)
  {
    var r := Strip(s, chars);
    var i :| OccursAtIndex(s, r, i);
    forall j | 0 <= j < |r|
      ensures r[j] != c
    {
      assert r[j] == s[i + j];
    }
  }

  /** Stripping twice is stripping once. */
  lemma StripIdempotent(s: string, chars: set<char>)
    ensures Strip(Strip(s, chars), chars) == Strip(s, chars)
  {
    StripClean(Strip(s, chars), chars);
  }

  /** A string free of the stripped characters is its own strip. */
  lemma StripNone(s: string, chars: set<char>)
    requires forall i :: 0 <= i < |s| ==> s[i] !in chars
    ensures Strip(s, chars) == s
  {
  }

  /** Padding made of stripped characters after a clean string is removed. */
  lemma {:induction false} StripRightPad(s: string, pad: string, chars: set<char>)
    requires |s| > 0 ==> s[|s| - 1] !in chars
    requires forall i :: 0 <= i < |pad| ==> pad[i] in chars
    ensures StripRight(s + pad, chars) == s
    decreases |pad|
  {
    if |pad| > 0 {
      var t := s + pad;
      assert t[..|t| - 1] == s + pad[..|pad| - 1];
      StripRightPad(s, pad[..|pad| - 1], chars);
    } else {
      assert s + pad == s;
    }
  }

  /** A clean non-empty string followed by stripped characters strips back to itself. */
  lemma StripPadded(s: string, pad: string, chars: set<char>)
    requires |s| > 0 && s[0] !in chars && s[|s| - 1] !in chars
    requires forall i :: 0 <= i < |pad| ==> pad[i] in chars
    ensures Strip(s + pad, chars) == s
  {
    assert (s + pad)[0] == s[0];
    StripRightPad(s, pad, chars);
  }

  /** Printable ASCII characters are not whitespace. */
  lemma PrintableNotWhitespace(s: string)
    requires forall i :: 0 <= i < |s| ==> '!' <= s[i] <= '~'
    ensures Strip(s, Whitespace) == s
  {
    StripNone(s, Whitespace);
  }

  // ---------------------------------------------------------------------------
  // str.lower (ASCII letters)

  function LowerChar(c: char): char {
    if 'A' <= c <= 'Z' then (c as int + 32) as char else c
  }

  /** `s.lower()` on ASCII letters; every other character is kept. */
  function Lower(s: string): (r: string)
    ensures |r| == |s|
    ensures forall i :: 0 <= i < |s| ==> r[i] == LowerChar(s[i])
  {
    seq(|s|, i requires 0 <= i < |s| => LowerChar(s[i]))
  }

  /** Lowering is idempotent and leaves no upper-case ASCII letter. */
  lemma LowerIdempotent(s: string)
    ensures Lower(Lower(s)) == Lower(s)
    ensures forall i :: 0 <= i < |s| ==> !('A' <= Lower(s)[i] <= 'Z')
  {
  }

  /** A string without upper-case ASCII letters is its own lower case. */
  lemma LowerOfLowercase(s: string)
    requires forall i :: 0 <= i < |s| ==> !('A' <= s[i] <= 'Z')
    ensures Lower(s) == s
  {
  }

  // ---------------------------------------------------------------------------
  // Digits: str.isdigit, int(), float(), str(n)

  predicate IsDigit(c: char) {
    '0' <= c <= '9'
  }

  predicate AllDigits(s: string) {
    forall i :: 0 <= i < |s| ==> IsDigit(s[i])
  }

  /** `s.isdigit()`: non-empty and made of digits. */
  predicate IsDigits(s: string) {
    |s| > 0 && AllDigits(s)
  }

  function DigitValue(c: char): nat
    requires IsDigit(c)
  {
    c as int - '0' as int
  }

  function DigitChar(d: nat): (c: char)
    requires d < 10
    ensures IsDigit(c) && DigitValue(c) == d
  {
    ('0' as int + d) as char
  }

  /** The number a digit string denotes in base ten (0 for the empty string). */
  function DigitsValue(s: string): nat
    requires AllDigits(s)
    decreases |s|
  {
    if |s| == 0 then 0 else 10 * DigitsValue(s[..|s| - 1]) + DigitValue(s[|s| - 1])
  }

  function Pow10(n: nat): (r: nat)
    ensures r > 0
  {
    if n == 0 then 1 else 10 * Pow10(n - 1)
  }

  /** A digit string without a leading zero (or the single digit "0"): what `str(n)` produces. */
  predicate Canonical(s: string) {
    IsDigits(s) && (s[0] != '0' || |s| == 1)
  }

  /** `str(n)` for a natural number. */
  function NatToString(n: nat): (r: string)
    ensures Canonical(r)
    ensures DigitsValue(r) == n
    decreases n
  {
    if n < 10 then [DigitChar(n)]
    else
      var r := NatToString(n / 10) + [DigitChar(n % 10)];
      assert r[..|r| - 1] == NatToString(n / 10);
      r
  }

  /** A canonical digit string is `str` of its value: `str(int(s)) == s`. */
  lemma {:induction false} NatToStringOfValue(s: string)
    requires Canonical(s)
    ensures NatToString(DigitsValue(s)) == s
    decreases |s|
  {
    if |s| > 1 {
      var t := s[..|s| - 1];
      assert Canonical(t);
      LeadingDigitPositive(t);
      NatToStringOfValue(t);
      var n := DigitsValue(s);
      assert n / 10 == DigitsValue(t) && n % 10 == DigitValue(s[|s| - 1]);
      assert s == t + [s[|s| - 1]];
    }
  }

  lemma {:induction false} LeadingDigitPositive(s: string)
    requires IsDigits(s) && s[0] != '0'
    ensures DigitsValue(s) > 0
    decreases |s|
  {
    if |s| > 1 {
      LeadingDigitPositive(s[..|s| - 1]);
    }
  }

  /** The value of two digit strings written one after the other. */
  lemma {:induction false} DigitsValueConcat(a: string, b: string)
    requires AllDigits(a) && AllDigits(b)
    ensures AllDigits(a + b)
    ensures DigitsValue(a + b) == DigitsValue(a) * Pow10(|b|) + DigitsValue(b)
    decreases |b|
  {
    AllDigitsConcat(a, b);
    if |b| == 0 {
      assert a + b == a;
    } else {
      var b' := b[..|b| - 1];
      var last := b[|b| - 1];
      DigitsValueConcat(a, b');
      ConcatLast(a, b);
      assert DigitsValue(a + b) == 10 * DigitsValue(a + b') + DigitValue(last);
      ShiftDigit(DigitsValue(a), Pow10(|b'|), DigitsValue(b'), DigitValue(last));
    }
  }

  lemma AllDigitsConcat(a: string, b: string)
    requires AllDigits(a) && AllDigits(b)
    ensures AllDigits(a + b)
  {
    assert forall i :: 0 <= i < |a + b| ==> (a + b)[i] == if i < |a| then a[i] else b[i - |a|];
  }

  lemma ConcatLast(a: string, b: string)
    requires |b| > 0
    ensures (a + b)[..|a + b| - 1] == a + b[..|b| - 1]
    ensures (a + b)[|a + b| - 1] == b[|b| - 1]
  {
  }

  /** Appending a digit to `va * p + vb` multiplies by ten and adds the digit. */
  lemma ShiftDigit(va: int, p: int, vb: int, d: int)
    ensures 10 * (va * p + vb) + d == va * (10 * p) + (10 * vb + d)
  {
    assert 10 * (va * p) == va * (10 * p);
  }

  /** Python's `int(s)` on an ASCII decimal string, surrounding whitespace allowed;
      `None` where Python raises `ValueError`. */
  function ParseInt(s: string): (r: Option<nat>)
    ensures r.Some? <==> IsDigits(Strip(s, Whitespace))
  {
    var t := Strip(s, Whitespace);
    if IsDigits(t) then Some(DigitsValue(t)) else None
  }

  /** `int(str(n)) == n`. */
  lemma ParseIntOfString(n: nat)
    ensures ParseInt(NatToString(n)) == Some(n)
  {
    var s := NatToString(n);
    StripNone(s, Whitespace);
  }

  /** The value of the digits after a decimal point: `0.d1d2...dk`. */
  function Fraction(digits: string): (r: real)
    requires AllDigits(digits)
    ensures 0.0 <= r
  {
    var n := DigitsValue(digits) as real;
    var d := Pow10(|digits|) as real;
    assert n >= 0.0 && d > 0.0;
    n / d
  }

  /** Python's `float(s)` on an ASCII decimal string: digits with at most one decimal
      point and at least one digit, surrounding whitespace allowed; `None` where
      Python raises `ValueError`. */
  function ParseFloat(s: string): (r: Option<real>)
    ensures r.Some? ==> r.value >= 0.0
    ensures IsDigits(Strip(s, Whitespace)) ==> r == Some(DigitsValue(Strip(s, Whitespace)) as real)
  {
    ParseDecimal(Strip(s, Whitespace))
  }

  /** The decimal grammar `float()` accepts once whitespace is stripped. */
  function ParseDecimal(t: string): (r: Option<real>)
    ensures r.Some? ==> r.value >= 0.0
    ensures IsDigits(t) ==> r == Some(DigitsValue(t) as real)
  {
    if IsDigits(t) then
      Some(DigitsValue(t) as real)
    else
      var parts := Split(t, '.');
      if |parts| == 2 && AllDigits(parts[0]) && AllDigits(parts[1]) && |parts[0]| + |parts[1]| > 0 then
        Some(DigitsValue(parts[0]) as real + Fraction(parts[1]))
      else
        None
  }

  /** `float('<a>.<b>')` is the integer part plus the fraction. */
  lemma ParseFloatDecimal(a: string, b: string)
    requires AllDigits(a) && AllDigits(b) && |a| + |b| > 0
    ensures ParseFloat(a + "." + b) == Some(DigitsValue(a) as real + Fraction(b))
  {
    var s := a + "." + b;
    SplitPair(a, b, '.');
    assert s[|a|] == '.';
    ParseDecimalParts(s, a, b);
    DecimalChars(a, b);
    NoWhitespace(s);
    StripNone(s, Whitespace);
  }

  /** Splitting `a + sep + b` at `sep` gives `[a, b]` when neither piece holds `sep`. */
  lemma SplitPair(a: string, b: string, sep: char)
    requires sep !in a && sep !in b
    ensures Split(a + [sep] + b, sep) == [a, b]
  {
    assert Join([a, b], sep) == a + [sep] + b;
    SplitJoin([a, b], sep);
  }

  lemma DecimalChars(a: string, b: string)
    requires AllDigits(a) && AllDigits(b)
    ensures forall i :: 0 <= i < |a + "." + b| ==> IsDigit((a + "." + b)[i]) || (a + "." + b)[i] == '.'
  {
    var s := a + "." + b;
    forall i | 0 <= i < |s|
      ensures IsDigit(s[i]) || s[i] == '.'
    {
      if i < |a| {
        assert s[i] == a[i];
      } else if i > |a| {
        assert s[i] == b[i - |a| - 1];
      }
    }
  }

  lemma ParseDecimalParts(t: string, a: string, b: string)
    requires AllDigits(a) && AllDigits(b) && |a| + |b| > 0
    requires !IsDigits(t) && Split(t, '.') == [a, b]
    ensures ParseDecimal(t) == Some(DigitsValue(a) as real + Fraction(b))
  {
  }

  /** Digits and decimal points are not whitespace. */
  lemma NoWhitespace(s: string)
    requires forall i :: 0 <= i < |s| ==> IsDigit(s[i]) || s[i] == '.'
    ensures forall i :: 0 <= i < |s| ==> s[i] !in Whitespace
  {
  }
}

=== FILE: validation.dfy ===
/** `components/data_validation/__init__.py`: the row-cleaning filter and column drop
    that `infer_schema` applies to the raw dataset before schema inference, and the
    None-on-failure result of `get_schema`. Schema inference itself and the artifact
    store are outside this model. */
module Validation {
  import opened Wrappers
  import opened Frames
  import opened Records

  /** The wheel-drive placeholder the site shows for an undecided drive ("4WD or AWD"). */
  const UndecidedDrive: string := "4WD ho\U{1EB7}c AWD"

  /** `df[col] != v` for one text cell: a missing value is different from every string,
      so it passes. */
  predicate Differs(cell: Option<string>, v: string) {
    cell != Some(v)
  }

  /** The six conditions of the cleaning step, one per `df.loc[...]` line. */
  predicate Clean(r: RawRecord) {
    && Differs(r.externalColor, "-")
    && Differs(r.internalColor, "-")
    && Differs(r.fuels, "-")
    && Differs(r.gearbox, "-")
    && Differs(r.wheelDrive, "")
    && Differs(r.wheelDrive, UndecidedDrive)
  }

  /** The six successive selections, in the source's order. */
  function CleanRows(rows: seq<RawRecord>): (r: seq<RawRecord>)
    ensures r == Filter(rows, Clean)
    ensures IsSubsequence(r, rows)
    ensures forall x :: x in r ==> x.externalColor != Some("-") && x.internalColor != Some("-")
    ensures forall x :: x in r ==> x.fuels != Some("-") && x.gearbox != Some("-")
    ensures forall x :: x in r ==> x.wheelDrive != Some("") && x.wheelDrive != Some(UndecidedDrive)
  {
    var m1 := (x: RawRecord) => Differs(x.externalColor, "-");
    var m2 := (x: RawRecord) => Differs(x.internalColor, "-");
    var m3 := (x: RawRecord) => Differs(x.fuels, "-");
    var m4 := (x: RawRecord) => Differs(x.gearbox, "-");
    var m5 := (x: RawRecord) => Differs(x.wheelDrive, "");
    var m6 := (x: RawRecord) => Differs(x.wheelDrive, UndecidedDrive);
    var m1234 := (x: RawRecord) => m1(x) && m2(x) && m3(x) && m4(x);
    var m12345 := (x: RawRecord) => m1234(x) && m5(x);
    FilterComposeFour(rows, m1, m2, m3, m4, m1234);
    FilterCompose(rows, m1234, m5, m12345);
    FilterCompose(rows, m12345, m6, Clean);
    FilterIsSubsequence(rows, Clean);
    Filter(Filter(Filter(Filter(Filter(Filter(rows, m1), m2), m3), m4), m5), m6)
  }

  /** A row is kept exactly when none of the six placeholder values appears; missing
      cells never cause a row to be dropped. */
  lemma CleanRowsKeepsExactly(rows: seq<RawRecord>, x: RawRecord)
    requires x in rows
    ensures x in CleanRows(rows) <==>
      && x.externalColor != Some("-") && x.internalColor != Some("-")
      && x.fuels != Some("-") && x.gearbox != Some("-")
      && x.wheelDrive != Some("") && x.wheelDrive != Some(UndecidedDrive)
  {
  }

  /** A row whose checked columns are all missing survives the cleaning. */
  lemma MissingValuesKept(rows: seq<RawRecord>, x: RawRecord)
    requires x in rows
    requires x.externalColor == None && x.internalColor == None && x.fuels == None
    requires x.gearbox == None && x.wheelDrive == None
    ensures x in CleanRows(rows)
  {
  }

  /** Cleaning a cleaned table changes nothing. */
  lemma CleanRowsIdempotent(rows: seq<RawRecord>)
    ensures CleanRows(CleanRows(rows)) == CleanRows(rows)
  {
    FilterIdempotent(rows, Clean);
  }

  /** The rows after cleaning and `drop(['_id', 'title', 'url', 'post_date'])`. */
  function CleanAndDrop(rows: seq<RawRecord>): (r: seq<Row>)
    ensures |r| == |CleanRows(rows)|
    ensures forall i :: 0 <= i < |r| ==> forall name :: name in MetadataColumns ==> RowCell(r[i], name) == None
    ensures forall i :: 0 <= i < |r| ==> forall name :: name !in MetadataColumns ==> RowCell(r[i], name) == RawCell(CleanRows(rows)[i], name)
  {
    var kept := CleanRows(rows);
    seq(|kept|, i requires 0 <= i < |kept| => DropMetadata(kept[i]))
  }

  /** The output table has exactly the raw columns other than the metadata ones. */
  lemma CleanAndDropColumns(rows: seq<RawRecord>, i: nat, name: string)
    requires i < |CleanAndDrop(rows)|
    ensures RowCell(CleanAndDrop(rows)[i], name).Some? <==> name in RawColumns && name !in MetadataColumns
  {
    ColumnsDeclared(CleanAndDrop(rows)[i], CleanRows(rows)[i], name);
    DroppedColumnOrder();
  }

  /** `get_schema`: the artifact lookup, the download and the schema parse are the
      three steps inside the `try`. Any failure is swallowed and `None` comes back;
      otherwise the parsed schema does. */
  function GetSchema<A, D, Schema, E>(artifact: Result<A, E>, download: A -> Result<D, E>, load: D -> Result<Schema, E>): (r: Option<Schema>)
    ensures r.Some? <==> artifact.Success? && download(artifact.value).Success? && load(download(artifact.value).value).Success?
    ensures r.Some? ==> r.value == load(download(artifact.value).value).value
  {
    match artifact
    case Failure(_) => None
    case Success(a) =>
      match download(a)
      case Failure(_) => None
      case Success(d) => load(d).ToOption()
  }
}

=== FILE: wrappers.dfy ===
/** Option and Result types used throughout the model.
    `None` stands for Python's `None` and, in numeric table cells, for pandas' NaN. */
module Wrappers {

  datatype Option<+T> = None | Some(value: T) {
    function GetOr(default: T): T {
      match this
      case Some(v) => v
      case None => default
    }
  }

  datatype Result<+R, +E> = Success(value: R) | Failure(error: E) {
    function ToOption(): Option<R> {
      match this
      case Success(v) => Some(v)
      case Failure(_) => None
    }
  }
}
